=== FILE: README.md ===
# Filament panel component registry, in Dafny

This project models the `HasComponents` trait of a Filament panel
(`packages/panels/src/Panel/Concerns/HasComponents.php`): how a panel collects its
pages, resources and widgets, how it discovers them in a directory, how it reads them
back (deduplicated, sorted, searched), and how it hands every Livewire component it
knows to Livewire's component table when the panel boots.

The panel's state is the immutable record `HasComponents.Panel`: three registration
lists, three first-seen directory/namespace pairs, and the registration buffer that maps
a Livewire component name to a class. The operations that change the
panel (`pages`, `resources`, `widgets` and the three discoveries) are pure functions from
one `Panel` to the next; the getters are pure functions of a `Panel`; queueing one class
is `ComponentBuffer.Queue` on the buffer alone. The flush into Livewire is a method that
takes Livewire's table as a map and returns the updated map.

What the trait asks of the framework around it is a field of `Framework.Env`, supplied
by the caller as an uninterpreted function. That covers reflection (`isAbstract`,
`is_subclass_of`), the static methods of pages, resources and widgets (`isDiscovered`,
`getSort`, `getModel`, `getPages`, `getRelations`, `getWidgets`), Livewire's
`ComponentRegistry::getName`, and the filesystem (`exists`, `allFiles`). The panel's own authentication settings (feature flags and route actions) are the
record `Registration.AuthConfig`, and a model passed to `getModelResource` is a
`HasComponents.ModelRef`, a class name or an instance of one.

Modules, in dependency order:

- `Wrappers`: `Option`.
- `Seqs`: duplicate-free lists, `FirstIndex`, `Dedup` (PHP's `array_unique`, first occurrence kept) and `FindFirst`.
- `StableSort`: `SortBy` (Laravel's `sortBy`, stable on PHP 8) and what characterizes it.
- `Strs`: PHP `trim`, Laravel `blank`, `Str::before` and `str_replace`.
- `Framework`: the entities (widget entries, relation manager entries, files), the `Env` oracle record, and the framework class names.
- `ComponentBuffer`: `queueLivewireComponentForRegistration`, and binding a buffer into Livewire's table.
- `Discovery`: `discoverComponents`, covering the class name derived from a file and the filter pipeline.
- `HasComponents`: the `Panel` record, the builders, the `discover*` entry points and the read accessors.
- `Registration`: `registerLivewireComponents`.

Queueing assigns `buffer[name] = class`, so a later class queued under the same name
replaces the earlier one (`ComponentBuffer.QueueLastWins`).

## Model

| member | source | states |
|---|---|---|
| HasComponents.Pages | packages/panels/src/Panel/Concerns/HasComponents.php:60-72 | the stored pages become the old pages followed by the new ones; the buffer gains exactly the new pages' component names; the last page with a given name is the one bound under it; buffered names no new page uses keep their class; nothing else in the panel changes |
| HasComponents.PagesCompose | packages/panels/src/Panel/Concerns/HasComponents.php:60-72 | two `pages` calls leave the panel exactly as one call with the concatenated list does |
| HasComponents.Resources | packages/panels/src/Panel/Concerns/HasComponents.php:77-85 | the stored resources become the old resources followed by the new ones; the registration buffer and every other field are untouched |
| HasComponents.ResourcesCompose | packages/panels/src/Panel/Concerns/HasComponents.php:77-85 | two `resources` calls equal one call with the concatenated list |
| HasComponents.Widgets | packages/panels/src/Panel/Concerns/HasComponents.php:107-119 | the stored widgets become old followed by new; the buffer gains exactly the component names of the new entries' widget classes; the last entry with a given name has its widget class bound under it; names none of the new classes use keep their class; nothing else in the panel changes |
| HasComponents.WidgetsCompose | packages/panels/src/Panel/Concerns/HasComponents.php:107-119 | two `widgets` calls equal one call with the concatenated list |
| Framework.NormalizeWidgetClassForgetsProperties | packages/panels/src/Panel/Concerns/HasComponents.php:125-132 | a widget configuration normalizes to the same class as the bare widget class it configures, whatever its properties |
| Framework.NormalizeRelationManagerClassForgetsProperties | packages/panels/src/Panel/Concerns/HasComponents.php:353-360 | a relation manager configuration normalizes to the same class as the bare manager class it configures, whatever its properties |
| Framework.NormalizeWidgetClasses | packages/panels/src/Panel/Concerns/HasComponents.php:125-132 | one class per widget entry, in order: the class itself, or the `widget` of a configuration |
| HasComponents.KeepFirst | packages/panels/src/Panel/Concerns/HasComponents.php:136-137 | `??=` keeps a non-null property as it is and gives a null one the new value |
| HasComponents.DiscoverPages | packages/panels/src/Panel/Concerns/HasComponents.php:134-147 | page directory and namespace are set only when still null; the pages gain exactly the accepted candidates of this call's directory and namespace, after the old pages; the buffer is the old buffer with the Livewire candidates queued; a skipped call changes neither |
| HasComponents.DiscoverResources | packages/panels/src/Panel/Concerns/HasComponents.php:159-172 | the same for resources, against the resource base class |
| HasComponents.DiscoverWidgets | packages/panels/src/Panel/Concerns/HasComponents.php:184-197 | the same for widgets, against the widget base class, appending each accepted class as a plain widget entry |
| HasComponents.GetPages | packages/panels/src/Panel/Concerns/HasComponents.php:212-215 | the result is the stored pages without duplicates: each page appears exactly once, and the order is the order of first occurrence |
| HasComponents.PagesExtendGetPages | packages/panels/src/Panel/Concerns/HasComponents.php:212-215 | after more `pages`, the earlier `getPages` result is a prefix of the new one, and every new page is listed |
| HasComponents.GetResources | packages/panels/src/Panel/Concerns/HasComponents.php:220-223 | the stored resources without duplicates, in order of first occurrence |
| HasComponents.ResourcesExtendGetResources | packages/panels/src/Panel/Concerns/HasComponents.php:220-223 | after more `resources`, the earlier `getResources` result is a prefix of the new one, and every new resource is listed |
| HasComponents.GetWidgets | packages/panels/src/Panel/Concerns/HasComponents.php:228-234 | the result is the stable sort, by `getSort` of the widget class, of the deduplicated widgets, and a permutation of them |
| HasComponents.GetWidgetsMembers | packages/panels/src/Panel/Concerns/HasComponents.php:228-234 | `getWidgets` has no duplicates and holds exactly the registered widget entries |
| HasComponents.GetWidgetsTieOrder | packages/panels/src/Panel/Concerns/HasComponents.php:228-234 | two widgets with equal sort keys come out in the order of their first registration |
| HasComponents.GetModelResource | packages/panels/src/Panel/Concerns/HasComponents.php:87-102 | null exactly when no registered resource has the model's class as its model; otherwise a registered resource with that model, and no resource registered earlier has it |
| HasComponents.GetModelResourceFirstWins | packages/panels/src/Panel/Concerns/HasComponents.php:87-102 | registering more resources never changes the resource a model already resolves to |
| Discovery.VariableNamespace | packages/panels/src/Panel/Concerns/HasComponents.php:254-264 | the variable namespace never contains a backslash; for a namespace without `*` it is empty |
| Discovery.ClassFromFile | packages/panels/src/Panel/Concerns/HasComponents.php:266-269 | a derived class name never contains `/`, and contains no `*` when the variable namespace has none |
| Discovery.ClassFromPlainFile | packages/panels/src/Panel/Concerns/HasComponents.php:266-269 | for a namespace without `*` and a file `a/b/C.php`, the class is the namespace, a backslash, and `a\b\C` |
| Discovery.ClassesFromFiles | packages/panels/src/Panel/Concerns/HasComponents.php:253-269 | one class name per file, in file order |
| Discovery.AcceptedClasses | packages/panels/src/Panel/Concerns/HasComponents.php:271-287 | the kept candidates are concrete, subclasses of the base class and discoverable, and every such candidate is kept |
| Discovery.AcceptedClassesSingle | packages/panels/src/Panel/Concerns/HasComponents.php:271-287 | a single candidate is appended exactly when it is accepted |
| Discovery.AcceptedClassesAppend | packages/panels/src/Panel/Concerns/HasComponents.php:253-287 | the loop keeps file order and repeats: the accepted classes of consecutive files are those of the first files followed by those of the rest |
| Discovery.QueuedClasses | packages/panels/src/Panel/Concerns/HasComponents.php:271-277 | the queued candidates are exactly the concrete Livewire components |
| Discovery.QueuedClassesSingle | packages/panels/src/Panel/Concerns/HasComponents.php:271-277 | a single candidate is queued exactly when it is a concrete Livewire component |
| Discovery.QueuedClassesAppend | packages/panels/src/Panel/Concerns/HasComponents.php:253-277 | queueing follows file order: the queued classes of consecutive files are those of the first files followed by those of the rest |
| Discovery.DiscoverEachFound | packages/panels/src/Panel/Concerns/HasComponents.php:253-288 | the loop over files appends exactly the accepted classes, in file order, after what the register held |
| Discovery.DiscoverEachBuffer | packages/panels/src/Panel/Concerns/HasComponents.php:253-288 | the loop over files queues exactly the concrete Livewire classes, in file order |
| Discovery.DiscoverComponents | packages/panels/src/Panel/Concerns/HasComponents.php:239-289 | a blank directory or namespace, or a missing directory without `*`, changes nothing; otherwise the found classes are the accepted candidates and the buffer gains the queued ones |
| Discovery.DiscoverComponentsFilters | packages/panels/src/Panel/Concerns/HasComponents.php:271-287 | element by element: only accepted candidates are registered, all of them are, every concrete Livewire candidate is buffered, and every new buffer entry is a concrete Livewire class |
| Strs.TrimStart | packages/panels/src/Panel/Concerns/HasComponents.php:241 | drops exactly the leading run of trimmable characters |
| Strs.TrimEnd | packages/panels/src/Panel/Concerns/HasComponents.php:241 | drops exactly the trailing run of trimmable characters |
| Strs.BlankIffAllTrimmable | packages/panels/src/Panel/Concerns/HasComponents.php:241 | a string is blank exactly when all its characters are whitespace or NUL |
| Strs.Before | packages/panels/src/Panel/Concerns/HasComponents.php:263 | the result is the longest prefix without the separator |
| Strs.ReplaceAll | packages/panels/src/Panel/Concerns/HasComponents.php:266-269 | replacing takes characters only from the subject or the replacement, leaves a subject without the needle's first character unchanged, removes a one-character needle when the replacement lacks that character, and for a one-character needle and replacement rewrites exactly the occurrences, position by position |
| Strs.ReplaceAllAbsent | packages/panels/src/Panel/Concerns/HasComponents.php:266-269 | a subject in which the needle occurs at no position, a multi-character needle such as `.php` included, is left unchanged |
| Strs.ReplaceAllSkip | packages/panels/src/Panel/Concerns/HasComponents.php:266-269 | a prefix without the needle's first character passes through the replacement unchanged |
| Strs.ReplaceCharSingle | packages/panels/src/Panel/Concerns/HasComponents.php:268 | the one-character needle alone becomes the whole replacement, of any length, as `*` becomes the variable namespace |
| Strs.ReplaceCharConcat | packages/panels/src/Panel/Concerns/HasComponents.php:266-269 | replacing one character distributes over concatenation |
| ComponentBuffer.Queue | packages/panels/src/Panel/Concerns/HasComponents.php:362-367 | the buffer gains the component's name, bound to the component; other names keep their class |
| ComponentBuffer.QueueLastWins | packages/panels/src/Panel/Concerns/HasComponents.php:362-367 | queueing a second class under the same name forgets the first |
| ComponentBuffer.QueueAll | packages/panels/src/Panel/Concerns/HasComponents.php:67-69 | queueing a list adds exactly its names; each name is bound to the last class with that name; names the list does not use are unchanged; every new binding comes from the list under its own name |
| ComponentBuffer.QueueAllAppend | packages/panels/src/Panel/Concerns/HasComponents.php:67-69 | queueing two lists in turn is queueing their concatenation |
| ComponentBuffer.BindAll | packages/panels/src/Panel/Concerns/HasComponents.php:342-344 | Livewire's table gains every buffered name with its buffered class and keeps its other bindings |
| ComponentBuffer.QueueAndBind | packages/panels/src/Panel/Concerns/HasComponents.php:292-346 | after queueing a list and binding the buffer, each queued name is bound to its last class, buffered-only names to the buffered class, the rest of the table is kept, and no binding comes from anywhere else |
| Registration.AuthComponents | packages/panels/src/Panel/Concerns/HasComponents.php:298-318 | an authentication route action is queued exactly when its feature is on and it is a Livewire component, with both password reset actions under the one password reset flag |
| Registration.EntryManagers | packages/panels/src/Panel/Concerns/HasComponents.php:325-335 | one relation entry contributes exactly its manager, or every manager of its group |
| Registration.GroupManagers | packages/panels/src/Panel/Concerns/HasComponents.php:327-329 | a relation group contributes one class per manager, in order, each one normalized |
| Registration.ManagerClasses | packages/panels/src/Panel/Concerns/HasComponents.php:325-335 | a class is queued for a resource's relations exactly when some entry manages it, groups flattened |
| Registration.ResourceComponents | packages/panels/src/Panel/Concerns/HasComponents.php:321-339 | a resource queues exactly its pages, its relation managers and its widget classes |
| Registration.ResourcesComponents | packages/panels/src/Panel/Concerns/HasComponents.php:320-340 | a list of resources queues exactly what some resource in it queues |
| Registration.ResourcesComponentsOfDedup | packages/panels/src/Panel/Concerns/HasComponents.php:320 | iterating the deduplicated resources queues exactly what the registered resources queue |
| Registration.RegistrationQueue | packages/panels/src/Panel/Concerns/HasComponents.php:292-295 | the queue opens with the four built-in components, in order |
| Registration.RegistrationQueueMembers | packages/panels/src/Panel/Concerns/HasComponents.php:292-340 | a class is queued exactly when it is built in, an enabled Livewire route action, or a page, relation manager or widget of a registered resource |
| Registration.RegisterLivewireComponents | packages/panels/src/Panel/Concerns/HasComponents.php:291-347 | the buffer is empty afterwards and nothing else in the panel changes; the table holds every queued and every buffered name; each queued name is bound to the last class queued under it; other names keep their buffered or earlier binding; no binding comes from anywhere else |
| Seqs.Dedup | packages/panels/src/Panel/Concerns/HasComponents.php:214 | `array_unique`: no duplicates, the same elements, in order of first occurrence |
| Seqs.DedupUnique | packages/panels/src/Panel/Concerns/HasComponents.php:214 | that description admits exactly one list, the one `Dedup` returns |
| Seqs.DedupIdempotent | packages/panels/src/Panel/Concerns/HasComponents.php:214 | deduplicating twice is deduplicating once |
| Seqs.DedupAppend | packages/panels/src/Panel/Concerns/HasComponents.php:214 | the deduplication of a list is a prefix of the deduplication of any extension of it |
| Seqs.FindFirst | packages/panels/src/Panel/Concerns/HasComponents.php:93-101 | the first match of a predicate: none exactly when nothing matches, and nothing before the result matches |
| Seqs.FindFirstDedup | packages/panels/src/Panel/Concerns/HasComponents.php:93-101 | the first match in the deduplicated list is the first match in the list |
| Seqs.FindFirstAppend | packages/panels/src/Panel/Concerns/HasComponents.php:93-101 | a match in a list stays the first match when the list is extended |
| StableSort.SortBy | packages/panels/src/Panel/Concerns/HasComponents.php:232 | the result is sorted by key, a permutation of the input, and keeps the input order among equal keys |
| StableSort.SortByCharacterized | packages/panels/src/Panel/Concerns/HasComponents.php:232 | a list is the `SortBy` result exactly when it is a stable sort of the input |
| StableSort.StableSortUnique | packages/panels/src/Panel/Concerns/HasComponents.php:232 | two stable sorts of the same list by the same key are equal |
| StableSort.StableSortTieOrder | packages/panels/src/Panel/Concerns/HasComponents.php:232 | in a stable sort, two elements with equal keys appear in their input order |
| StableSort.WithKeyKeepsOrder | packages/panels/src/Panel/Concerns/HasComponents.php:232 | two elements with the same key keep their relative order among the elements of that key |
| StableSort.WithKeyFromOrder | packages/panels/src/Panel/Concerns/HasComponents.php:232 | an order among the elements of one key is an order in the whole list |

## Left out

- The filesystem is the oracle pair `Env.pathExists` / `Env.allFiles`: a list of files with their directory and relative path, in the order the filesystem returns them.
- Reflection, `is_subclass_of`, and the static `isDiscovered`, `getSort`, `getModel`, `getPages`, `getRelations` and `getWidgets` are uninterpreted fields of `Env`. `ReflectionClass` failing on a class that does not exist is not modelled.
- `ComponentRegistry::getName` and the `app(...)` container lookup are the oracle `Env.nameOf`.
- `Livewire::component` is the map passed to `RegisterLivewireComponents` and returned by it. PHP's iteration order over the buffer is not modelled, because the buffer's names are distinct and the bindings do not depend on it.
- Discovery.VariableNamespace: for a namespace containing `*`, the case-insensitive `str_ireplace` of the file's path against `base_path()` is the oracle `Env.wildcardPath`. Only `Str::before('\\')` and the rewrites after it are modelled.
- The inputs of `pages`, `resources` and `widgets` are lists. PHP's spread of an array with string keys keeps only the later value of a key present in both the stored and the new array; the model always appends.
- Strs.ReplaceAll: when a multi-character needle does occur in the subject, the contract does not describe the result in general; for the `.php` suffix the discovery uses, `Discovery.DropPhpSuffix` and `Discovery.ClassFromPlainFile` state it. A one-character needle with a replacement of any length is described by the lemmas `Strs.ReplaceCharSingle`, `Strs.ReplaceCharConcat` and `Strs.ReplaceAllSkip` together rather than by the contract itself.
- PHP array keys kept by `array_unique` and `sortBy` are not modelled: results are plain lists.
- `getPages` and `getResources` call `array_unique` with its default `SORT_STRING`, which compares the class names as strings; the model compares them as strings too.
- `getWidgets` deduplicates through `Collection::unique()`, which calls `array_unique` with `SORT_REGULAR` and so compares with `==`. Here a widget configuration is a value (widget class plus properties), so two configurations are duplicates exactly when they are structurally equal, and object identity is not modelled.
- The `string` type hint on the `getWidgets` sort closure, which would reject a widget configuration object, is not modelled. The sort key is `getSort` of the normalized class.
- `getSort` returning null, or a non-integer sort key, is not modelled: sort keys are integers.
- Eloquent models are their class names (`ModelRef`), and `getModel` returns a class name.
- The authentication feature flags are booleans and their route actions are class names (`Registration.AuthConfig`). Route actions given as closures or arrays are not classes, so `is_subclass_of` rejects them. The oracle covers that.
- Getters `getPageDirectory`, `getPageNamespace`, `getResourceDirectory`, `getResourceNamespace`, `getWidgetDirectory` and `getWidgetNamespace` are the `Panel` fields of the same name. Their first-value behaviour is stated on `DiscoverPages`, `DiscoverResources` and `DiscoverWidgets`.
- Relation groups nested inside relation groups are not modelled. The source flattens one level only, and a group's managers are plain managers here.

=== FILE: component_buffer.dfy ===
/**
 The registration buffer of Livewire components: a map from component name to
 class, written by `queueLivewireComponentForRegistration` and flushed into
 Livewire's component table by `registerLivewireComponents`.
 */
module ComponentBuffer {
  import opened Framework

  /** Component name to class, as both the buffer and Livewire's table hold them. */
  type Buffer = map<string, ClassName>

  /** The component names of the classes in `cs`. */
  function NamesOf(cs: seq<ClassName>, nameOf: ClassName -> string): set<string>
  {
    set i | 0 <= i < |cs| :: nameOf(cs[i])
  }

  /** No class after position `i` of `cs` shares the component name of `cs[i]`. */
  predicate LastWithName(cs: seq<ClassName>, i: int, nameOf: ClassName -> string)
    requires 0 <= i < |cs|
  {
    forall j :: i < j < |cs| ==> nameOf(cs[j]) != nameOf(cs[i])
  }

  /** `queueLivewireComponentForRegistration`: buffers `c` under its component name, replacing any earlier class of that name. */
  function Queue(b: Buffer, c: ClassName, nameOf: ClassName -> string): (r: Buffer)
    ensures r.Keys == b.Keys + {nameOf(c)}
    ensures r[nameOf(c)] == c
    ensures forall n :: n in b && n != nameOf(c) ==> r[n] == b[n]
  {
    b[nameOf(c) := c]
  }

  /** The names of a non-empty list: the first class's name and the names of the rest. */
  lemma NamesOfCons(cs: seq<ClassName>, nameOf: ClassName -> string)
    requires |cs| > 0
    ensures NamesOf(cs, nameOf) == {nameOf(cs[0])} + NamesOf(cs[1..], nameOf)
  {
    forall n | n in NamesOf(cs, nameOf)
      ensures n in {nameOf(cs[0])} + NamesOf(cs[1..], nameOf)
    {
      var i :| 0 <= i < |cs| && nameOf(cs[i]) == n;
      assert i > 0 ==> cs[1..][i - 1] == cs[i];
    }
    forall n | n in NamesOf(cs[1..], nameOf)
      ensures n in NamesOf(cs, nameOf)
    {
      var i :| 0 <= i < |cs[1..]| && nameOf(cs[1..][i]) == n;
      assert cs[i + 1] == cs[1..][i];
    }
  }

  /** The last class of a name in a non-empty list is the first class, or the last of that name in the rest. */
  lemma LastWithNameCons(cs: seq<ClassName>, nameOf: ClassName -> string)
    requires |cs| > 0
    ensures forall i :: 0 < i < |cs| && LastWithName(cs, i, nameOf) ==> LastWithName(cs[1..], i - 1, nameOf)
    ensures LastWithName(cs, 0, nameOf) ==> nameOf(cs[0]) !in NamesOf(cs[1..], nameOf)
  {
    assert forall i :: 0 < i < |cs| ==> cs[1..][i - 1] == cs[i];
  }

  /** Queues every class of `cs` in order; for a repeated name the last class queued wins. */
  function QueueAll(b: Buffer, cs: seq<ClassName>, nameOf: ClassName -> string): (r: Buffer)
    ensures r.Keys == b.Keys + NamesOf(cs, nameOf)
    ensures forall i :: 0 <= i < |cs| && LastWithName(cs, i, nameOf) ==> r[nameOf(cs[i])] == cs[i]
    ensures forall n :: n in b && n !in NamesOf(cs, nameOf) ==> r[n] == b[n]
    ensures forall n :: n in r ==> (n in b && r[n] == b[n]) || (r[n] in cs && nameOf(r[n]) == n)
    decreases |cs|
  {
    if |cs| == 0 then b
    else
      var r := QueueAll(Queue(b, cs[0], nameOf), cs[1..], nameOf);
      NamesOfCons(cs, nameOf);
      LastWithNameCons(cs, nameOf);
      assert forall i :: 0 < i < |cs| ==> cs[1..][i - 1] == cs[i];
      assert forall c :: c in cs[1..] ==> c in cs;
      r
  }

  /** Queueing a class under a name already buffered replaces the earlier class entirely. */
  lemma QueueLastWins(b: Buffer, c1: ClassName, c2: ClassName, nameOf: ClassName -> string)
    requires nameOf(c1) == nameOf(c2)
    ensures Queue(Queue(b, c1, nameOf), c2, nameOf) == Queue(b, c2, nameOf)
  {
  }

  /** Queueing two lists one after the other is queueing their concatenation. */
  lemma {:induction false} QueueAllAppend(b: Buffer, cs1: seq<ClassName>, cs2: seq<ClassName>, nameOf: ClassName -> string)
    ensures QueueAll(QueueAll(b, cs1, nameOf), cs2, nameOf) == QueueAll(b, cs1 + cs2, nameOf)
    decreases |cs1|
  {
    if |cs1| == 0 {
      assert cs1 + cs2 == cs2;
    } else {
      assert (cs1 + cs2)[0] == cs1[0];
      assert (cs1 + cs2)[1..] == cs1[1..] + cs2;
      QueueAllAppend(Queue(b, cs1[0], nameOf), cs1[1..], cs2, nameOf);
    }
  }

  /**
   The loop of `registerLivewireComponents` calling `Livewire::component` for every
   buffered pair: afterwards the table binds every buffered name to its class and
   keeps its other bindings.
   */
  method BindAll(buffer: Buffer, table: Buffer) returns (bound: Buffer)
    ensures bound.Keys == table.Keys + buffer.Keys
    ensures forall n :: n in buffer ==> bound[n] == buffer[n]
    ensures forall n :: n in table && n !in buffer ==> bound[n] == table[n]
  {
    bound := table;
    var pending := buffer.Keys;
    while pending != {}
      invariant pending <= buffer.Keys
      invariant bound.Keys == table.Keys + (buffer.Keys - pending)
      invariant forall n :: n in buffer && n !in pending ==> bound[n] == buffer[n]
      invariant forall n :: n in table && n !in buffer ==> bound[n] == table[n]
      decreases pending
    {
      var n :| n in pending;
      bound := bound[n := buffer[n]];
      pending := pending - {n};
    }
  }

  /**
   Queues every class of `cs` on top of buffer `b`, then binds the buffer into
   `table`: each name is bound to the class queued last under it, names nobody
   queued keep the buffer's binding, and names neither queued nor buffered keep
   the table's.
   */
  method QueueAndBind(b: Buffer, cs: seq<ClassName>, nameOf: ClassName -> string, table: Buffer) returns (bound: Buffer)
    ensures bound.Keys == table.Keys + b.Keys + NamesOf(cs, nameOf)
    ensures forall i :: 0 <= i < |cs| ==> nameOf(cs[i]) in bound
    ensures forall i :: 0 <= i < |cs| && LastWithName(cs, i, nameOf) ==> bound[nameOf(cs[i])] == cs[i]
    ensures forall n :: n in b && n !in NamesOf(cs, nameOf) ==> n in bound && bound[n] == b[n]
    ensures forall n :: n in table && n !in b && n !in NamesOf(cs, nameOf) ==> n in bound && bound[n] == table[n]
    ensures forall n :: n in bound ==>
      (n in table && bound[n] == table[n]) || (n in b && bound[n] == b[n]) || (bound[n] in cs && nameOf(bound[n]) == n)
  {
    var buffer := QueueAll(b, cs, nameOf);
    assert forall i :: 0 <= i < |cs| ==> nameOf(cs[i]) in NamesOf(cs, nameOf);
    bound := BindAll(buffer, table);
  }
}

=== FILE: discovery.dfy ===
/**
 `discoverComponents`: derives a class name from every file under a directory,
 drops abstract classes, queues every Livewire component, and keeps the classes
 that extend the expected base class and report themselves discoverable.
 */
module Discovery {
  import opened Framework
  import opened Strs
  import opened ComponentBuffer
  import opened Seqs

  /**
   `$variableNamespace`: for a namespace containing `*`, the part before the
   first backslash of the file's rewritten path; otherwise PHP's null, which
   replaces `*` with nothing.
   */
  function VariableNamespace(namespace: string, file: SourceFile, env: Env): (r: string)
    ensures '\\' !in r
    ensures '*' !in namespace ==> r == ""
  {
    if '*' in namespace then Before(env.wildcardPath(namespace, file), '\\') else ""
  }

  /**
   The class name of a discovered file: the namespace, a backslash and the
   relative path, with `*` replaced by the variable namespace, every `/` by a
   backslash, and every `.php` removed.
   */
  function ClassFromFile(namespace: string, file: SourceFile, variableNamespace: string): (cls: ClassName)
    ensures '/' !in cls
    ensures '*' !in variableNamespace ==> '*' !in cls
  {
    var joined := namespace + "\\" + file.relativePathname;
    var expanded := ReplaceAll(joined, "*", variableNamespace);
    var separated := ReplaceAll(expanded, "/", "\\");
    ReplaceAll(separated, ".php", "")
  }

  lemma SeparatePlainPath(head: string, stem: string)
    requires '/' !in head
    ensures ReplaceAll(head + (stem + ".php"), "/", "\\") == head + (ReplaceAll(stem, "/", "\\") + ".php")
  {
    ReplaceAllSkip(head, stem + ".php", "/", "\\");
    ReplaceCharConcat(stem, ".php", '/', "\\");
  }

  lemma DropPhpSuffix(s: string)
    requires '.' !in s
    ensures ReplaceAll(s + ".php", ".php", "") == s
  {
    ReplaceAllSkip(s, ".php", ".php", "");
    assert ".php" <= ".php";
    assert ".php"[4..] == "";
  }

  lemma StarFreePath(head: string, stem: string)
    requires '*' !in head && '*' !in stem
    ensures ReplaceAll(head + (stem + ".php"), "*", "") == head + (stem + ".php")
  {
    assert '*' !in stem + ".php";
  }

  lemma DotFreeSeparated(head: string, stem: string)
    requires '.' !in head && '.' !in stem
    ensures '.' !in head + ReplaceAll(stem, "/", "\\")
  {
  }

  /**
   For an ordinary namespace and a PHP file under plain directories, the class
   is the namespace followed by the path's segments joined with backslashes.
   */
  lemma ClassFromPlainFile(namespace: string, file: SourceFile, stem: string)
    requires '*' !in namespace && '/' !in namespace && '.' !in namespace
    requires file.relativePathname == stem + ".php"
    requires '*' !in stem && '.' !in stem
    ensures ClassFromFile(namespace, file, "") == namespace + "\\" + ReplaceAll(stem, "/", "\\")
  {
    var head := namespace + "\\";
    var joined := head + (stem + ".php");
    var stem' := ReplaceAll(stem, "/", "\\");
    assert namespace + "\\" + file.relativePathname == joined;
    StarFreePath(head, stem);
    SeparatePlainPath(head, stem);
    AppendAssoc(head, stem', ".php");
    DotFreeSeparated(head, stem);
    DropPhpSuffix(head + stem');
  }

  /** The class names derived from `files`, in file order. */
  function ClassesFromFiles(namespace: string, files: seq<SourceFile>, env: Env): (r: seq<ClassName>)
    ensures |r| == |files|
    ensures forall i :: 0 <= i < |files| ==> r[i] == ClassFromFile(namespace, files[i], VariableNamespace(namespace, files[i], env))
  {
    if |files| == 0 then []
    else
      [ClassFromFile(namespace, files[0], VariableNamespace(namespace, files[0], env))]
      + ClassesFromFiles(namespace, files[1..], env)
  }

  /** Discovery does nothing for a blank directory or namespace, or a missing directory without `*`. */
  predicate Skipped(directory: string, namespace: string, env: Env)
  {
    Blank(directory) || Blank(namespace) || (!env.pathExists(directory) && '*' !in directory)
  }

  /** The classes discovery considers: one per file under the directory, none when it is skipped. */
  function Candidates(directory: string, namespace: string, env: Env): seq<ClassName>
  {
    if Skipped(directory, namespace, env) then [] else ClassesFromFiles(namespace, env.allFiles(directory), env)
  }

  /** A class that ends up in the register: concrete, a subclass of `baseClass`, and discoverable. */
  predicate Accepted(baseClass: ClassName, c: ClassName, env: Env)
  {
    !env.isAbstract(c) && env.isSubclassOf(c, baseClass) && env.isDiscovered(c)
  }

  /** A class that discovery queues for Livewire: concrete and a Livewire component. */
  predicate Queued(c: ClassName, env: Env)
  {
    !env.isAbstract(c) && IsLivewire(c, env)
  }

  /** The accepted classes of `cs`, in order. */
  function AcceptedClasses(baseClass: ClassName, cs: seq<ClassName>, env: Env): (r: seq<ClassName>)
    ensures |r| <= |cs|
    ensures forall i :: 0 <= i < |r| ==> r[i] in cs && Accepted(baseClass, r[i], env)
    ensures forall i :: 0 <= i < |cs| && Accepted(baseClass, cs[i], env) ==> cs[i] in r
  {
    if |cs| == 0 then []
    else
      var rest := AcceptedClasses(baseClass, cs[1..], env);
      assert forall i :: 0 < i < |cs| ==> cs[i] == cs[1..][i - 1];
      assert forall c :: c in cs[1..] ==> c in cs;
      (if Accepted(baseClass, cs[0], env) then [cs[0]] else []) + rest
  }

  /** The classes of `cs` that discovery queues, in order. */
  function QueuedClasses(cs: seq<ClassName>, env: Env): (r: seq<ClassName>)
    ensures |r| <= |cs|
    ensures forall i :: 0 <= i < |r| ==> r[i] in cs && Queued(r[i], env)
    ensures forall i :: 0 <= i < |cs| && Queued(cs[i], env) ==> cs[i] in r
  {
    if |cs| == 0 then []
    else
      var rest := QueuedClasses(cs[1..], env);
      assert forall i :: 0 < i < |cs| ==> cs[i] == cs[1..][i - 1];
      assert forall c :: c in cs[1..] ==> c in cs;
      (if Queued(cs[0], env) then [cs[0]] else []) + rest
  }

  /** One candidate is kept exactly when it is accepted. */
  lemma AcceptedClassesSingle(baseClass: ClassName, c: ClassName, env: Env)
    ensures AcceptedClasses(baseClass, [c], env) == if Accepted(baseClass, c, env) then [c] else []
  {
  }

  /** Filtering keeps file order: the accepted classes of a concatenation are those of each part, in turn. */
  lemma {:induction false} AcceptedClassesAppend(baseClass: ClassName, a: seq<ClassName>, b: seq<ClassName>, env: Env)
    ensures AcceptedClasses(baseClass, a + b, env) == AcceptedClasses(baseClass, a, env) + AcceptedClasses(baseClass, b, env)
    decreases |a|
  {
    if |a| == 0 {
      assert a + b == b;
    } else {
      assert (a + b)[0] == a[0];
      assert (a + b)[1..] == a[1..] + b;
      AcceptedClassesAppend(baseClass, a[1..], b, env);
      AppendAssoc(if Accepted(baseClass, a[0], env) then [a[0]] else [], AcceptedClasses(baseClass, a[1..], env), AcceptedClasses(baseClass, b, env));
    }
  }

  /** One candidate is queued exactly when it is a concrete Livewire component. */
  lemma QueuedClassesSingle(c: ClassName, env: Env)
    ensures QueuedClasses([c], env) == if Queued(c, env) then [c] else []
  {
  }

  /** Queueing keeps file order: the queued classes of a concatenation are those of each part, in turn. */
  lemma {:induction false} QueuedClassesAppend(a: seq<ClassName>, b: seq<ClassName>, env: Env)
    ensures QueuedClasses(a + b, env) == QueuedClasses(a, env) + QueuedClasses(b, env)
    decreases |a|
  {
    if |a| == 0 {
      assert a + b == b;
    } else {
      assert (a + b)[0] == a[0];
      assert (a + b)[1..] == a[1..] + b;
      QueuedClassesAppend(a[1..], b, env);
      AppendAssoc(if Queued(a[0], env) then [a[0]] else [], QueuedClasses(a[1..], env), QueuedClasses(b, env));
    }
  }

  /** What one discovery run produces: the classes to append to the register, and the updated buffer. */
  datatype Discovered = Discovered(found: seq<ClassName>, buffer: Buffer)

  /** One iteration of the loop over files, for the class derived from the file. */
  function Visit(baseClass: ClassName, cls: ClassName, env: Env, acc: Discovered): Discovered
  {
    if env.isAbstract(cls) then acc
    else
      var buffer := if IsLivewire(cls, env) then Queue(acc.buffer, cls, env.nameOf) else acc.buffer;
      if !env.isSubclassOf(cls, baseClass) then acc.(buffer := buffer)
      else if !env.isDiscovered(cls) then acc.(buffer := buffer)
      else Discovered(acc.found + [cls], buffer)
  }

  /** The loop over files, in file order, on the class derived from each file. */
  function DiscoverEach(baseClass: ClassName, cs: seq<ClassName>, env: Env, acc: Discovered): Discovered
    decreases |cs|
  {
    if |cs| == 0 then acc
    else DiscoverEach(baseClass, cs[1..], env, Visit(baseClass, cs[0], env, acc))
  }

  /** One iteration appends the class if it is accepted and queues it if it is a concrete Livewire component. */
  lemma VisitSpec(baseClass: ClassName, cls: ClassName, env: Env, acc: Discovered)
    ensures Visit(baseClass, cls, env, acc).found == acc.found + (if Accepted(baseClass, cls, env) then [cls] else [])
    ensures Visit(baseClass, cls, env, acc).buffer == if Queued(cls, env) then Queue(acc.buffer, cls, env.nameOf) else acc.buffer
  {
  }

  /** Queueing the Livewire classes of `cs` is queueing the first one, if it is one, then the rest. */
  lemma QueueQueuedStep(b: Buffer, cs: seq<ClassName>, env: Env)
    requires |cs| > 0
    ensures QueueAll(b, QueuedClasses(cs, env), env.nameOf)
         == QueueAll(if Queued(cs[0], env) then Queue(b, cs[0], env.nameOf) else b, QueuedClasses(cs[1..], env), env.nameOf)
  {
    if Queued(cs[0], env) {
      assert QueuedClasses(cs, env) == [cs[0]] + QueuedClasses(cs[1..], env);
      assert QueuedClasses(cs, env)[1..] == QueuedClasses(cs[1..], env);
    } else {
      assert QueuedClasses(cs, env) == QueuedClasses(cs[1..], env);
    }
  }

  /** The loop appends exactly the accepted classes, in file order. */
  lemma {:induction false} DiscoverEachFound(baseClass: ClassName, cs: seq<ClassName>, env: Env, acc: Discovered)
    ensures DiscoverEach(baseClass, cs, env, acc).found == acc.found + AcceptedClasses(baseClass, cs, env)
    decreases |cs|
  {
    if |cs| == 0 {
      assert acc.found + [] == acc.found;
    } else {
      var next := Visit(baseClass, cs[0], env, acc);
      DiscoverEachFound(baseClass, cs[1..], env, next);
      VisitSpec(baseClass, cs[0], env, acc);
      var a := if Accepted(baseClass, cs[0], env) then [cs[0]] else [];
      var rest := AcceptedClasses(baseClass, cs[1..], env);
      assert AcceptedClasses(baseClass, cs, env) == a + rest;
      assert next.found == acc.found + a;
      AppendAssoc(acc.found, a, rest);
    }
  }

  /** The loop queues exactly the concrete Livewire classes, in file order. */
  lemma {:induction false} DiscoverEachBuffer(baseClass: ClassName, cs: seq<ClassName>, env: Env, acc: Discovered)
    ensures DiscoverEach(baseClass, cs, env, acc).buffer == QueueAll(acc.buffer, QueuedClasses(cs, env), env.nameOf)
    decreases |cs|
  {
    if |cs| > 0 {
      var next := Visit(baseClass, cs[0], env, acc);
      DiscoverEachBuffer(baseClass, cs[1..], env, next);
      VisitSpec(baseClass, cs[0], env, acc);
      QueueQueuedStep(acc.buffer, cs, env);
    }
  }

  /**
   `discoverComponents`: a no-op when skipped; otherwise it returns, in file
   order, the candidates that are concrete, extend `baseClass` and are
   discoverable, and queues every concrete Livewire candidate.
   */
  function DiscoverComponents(baseClass: ClassName, directory: string, namespace: string, buffer: Buffer, env: Env): (r: Discovered)
    ensures Skipped(directory, namespace, env) ==> r == Discovered([], buffer)
    ensures r.found == AcceptedClasses(baseClass, Candidates(directory, namespace, env), env)
    ensures r.buffer == QueueAll(buffer, QueuedClasses(Candidates(directory, namespace, env), env), env.nameOf)
  {
    if Blank(directory) || Blank(namespace) then Discovered([], buffer)
    else if !env.pathExists(directory) && '*' !in directory then Discovered([], buffer)
    else
      var cs := ClassesFromFiles(namespace, env.allFiles(directory), env);
      DiscoverEachFound(baseClass, cs, env, Discovered([], buffer));
      DiscoverEachBuffer(baseClass, cs, env, Discovered([], buffer));
      assert [] + AcceptedClasses(baseClass, cs, env) == AcceptedClasses(baseClass, cs, env);
      DiscoverEach(baseClass, cs, env, Discovered([], buffer))
  }

  /**
   The filters of discovery, element by element: only accepted candidates are
   registered, every accepted candidate is, every concrete Livewire candidate
   is queued, and the buffer gains no abstract class.
   */
  lemma DiscoverComponentsFilters(baseClass: ClassName, directory: string, namespace: string, buffer: Buffer, env: Env)
    ensures var r := DiscoverComponents(baseClass, directory, namespace, buffer, env);
            var cs := Candidates(directory, namespace, env);
            && (forall i :: 0 <= i < |r.found| ==> r.found[i] in cs && Accepted(baseClass, r.found[i], env))
            && (forall i :: 0 <= i < |cs| && Accepted(baseClass, cs[i], env) ==> cs[i] in r.found)
            && (forall i :: 0 <= i < |cs| && Queued(cs[i], env) ==> env.nameOf(cs[i]) in r.buffer)
            && (forall n :: n in r.buffer ==> (n in buffer && r.buffer[n] == buffer[n]) || Queued(r.buffer[n], env))
  {
    var cs := Candidates(directory, namespace, env);
    var q := QueuedClasses(cs, env);
    forall i | 0 <= i < |cs| && Queued(cs[i], env)
      ensures env.nameOf(cs[i]) in NamesOf(q, env.nameOf)
    {
      var j :| 0 <= j < |q| && q[j] == cs[i];
    }
  }
}

=== FILE: framework.dfy ===
/**
 The entities a panel's component registry works with, and what the surrounding
 framework answers about them. Reflection, the filesystem, the Livewire name
 registry and the static methods of pages, resources and widgets are outside the
 model: they are the fields of `Env`, uninterpreted functions the caller supplies.
 */
module Framework {

  /** A fully qualified PHP class name, such as `App\Filament\Pages\Dashboard`. */
  type ClassName = string

  /** A widget is registered by class name or through a configuration object carrying properties. */
  datatype WidgetEntry =
    | WidgetClass(cls: ClassName)
    | WidgetConfiguration(widget: ClassName, properties: map<string, string>)

  /** A relation manager is registered by class name or through a configuration object. */
  datatype ManagerRef =
    | ManagerClass(cls: ClassName)
    | ManagerConfiguration(relationManager: ClassName, properties: map<string, string>)

  /** An entry of a resource's relations: a single manager or a group of managers. */
  datatype RelationEntry =
    | Single(manager: ManagerRef)
    | RelationGroup(managers: seq<ManagerRef>)

  /** A file found under a discovery directory: its directory and its path relative to the scanned root. */
  datatype SourceFile = SourceFile(path: string, relativePathname: string)

  /** What the framework answers about classes, files and names. */
  datatype Env = Env(
    nameOf: ClassName -> string,                          // ComponentRegistry::getName
    isAbstract: ClassName -> bool,                        // ReflectionClass::isAbstract
    isSubclassOf: (ClassName, ClassName) -> bool,         // is_subclass_of
    isDiscovered: ClassName -> bool,                      // static isDiscovered()
    getSort: ClassName -> int,                            // static Widget::getSort()
    getModel: ClassName -> ClassName,                     // static Resource::getModel()
    resourcePages: ClassName -> seq<ClassName>,           // getPage() of each of Resource::getPages()
    resourceRelations: ClassName -> seq<RelationEntry>,   // static Resource::getRelations()
    resourceWidgets: ClassName -> seq<WidgetEntry>,       // static Resource::getWidgets()
    pathExists: string -> bool,                           // Filesystem::exists
    allFiles: string -> seq<SourceFile>,                  // Filesystem::allFiles
    wildcardPath: (string, SourceFile) -> string          // the case-insensitive rewrite of a file's path for a wildcard namespace
  )

  const LivewireComponent: ClassName := "Livewire\\Component"
  const PageBase: ClassName := "Filament\\Pages\\Page"
  const ResourceBase: ClassName := "Filament\\Resources\\Resource"
  const WidgetBase: ClassName := "Filament\\Widgets\\Widget"

  const DatabaseNotifications: ClassName := "Filament\\Livewire\\DatabaseNotifications"
  const EditProfile: ClassName := "Filament\\Pages\\Auth\\EditProfile"
  const GlobalSearch: ClassName := "Filament\\Livewire\\GlobalSearch"
  const Notifications: ClassName := "Filament\\Livewire\\Notifications"

  /** `is_subclass_of($class, Component::class)`: the class is a Livewire component. */
  predicate IsLivewire(c: ClassName, env: Env)
  {
    env.isSubclassOf(c, LivewireComponent)
  }

  /** The widget class behind a widget entry. */
  function NormalizeWidgetClass(w: WidgetEntry): ClassName
  {
    match w
    case WidgetClass(c) => c
    case WidgetConfiguration(c, _) => c
  }

  /** The relation manager class behind a manager entry. */
  function NormalizeRelationManagerClass(m: ManagerRef): ClassName
  {
    match m
    case ManagerClass(c) => c
    case ManagerConfiguration(c, _) => c
  }

  /** A widget configuration stands for its widget class: its properties play no part. */
  lemma NormalizeWidgetClassForgetsProperties(c: ClassName, props: map<string, string>)
    ensures NormalizeWidgetClass(WidgetConfiguration(c, props)) == NormalizeWidgetClass(WidgetClass(c)) == c
  {
  }

  /** A relation manager configuration stands for its manager class: its properties play no part. */
  lemma NormalizeRelationManagerClassForgetsProperties(c: ClassName, props: map<string, string>)
    ensures NormalizeRelationManagerClass(ManagerConfiguration(c, props)) == NormalizeRelationManagerClass(ManagerClass(c)) == c
  {
  }

  /** The widget classes of a list of widget entries, in order. */
  function NormalizeWidgetClasses(ws: seq<WidgetEntry>): (r: seq<ClassName>)
    ensures |r| == |ws|
    ensures forall i :: 0 <= i < |ws| ==> r[i] == NormalizeWidgetClass(ws[i])
  {
    if |ws| == 0 then [] else [NormalizeWidgetClass(ws[0])] + NormalizeWidgetClasses(ws[1..])
  }

  /** Normalizing a concatenation normalizes each part. */
  lemma NormalizeWidgetClassesAppend(a: seq<WidgetEntry>, b: seq<WidgetEntry>)
    ensures NormalizeWidgetClasses(a + b) == NormalizeWidgetClasses(a) + NormalizeWidgetClasses(b)
  {
  }
}

=== FILE: has_components.dfy ===
/**
 The component state of a Filament panel and the operations of its
 `HasComponents` trait: the builders that append pages, resources and widgets,
 the directory discovery entry points, and the read accessors that deduplicate,
 sort and search what was registered.
 */
module HasComponents {
  import opened Wrappers
  import opened Seqs
  import opened StableSort
  import opened Framework
  import opened ComponentBuffer
  import opened Discovery

  /** The trait's properties: the registration buffer and, per kind, the registered entries and the first discovery location. */
  datatype Panel = Panel(
    livewireComponents: Buffer,
    pages: seq<ClassName>,
    pageDirectory: Option<string>,
    pageNamespace: Option<string>,
    resources: seq<ClassName>,
    resourceDirectory: Option<string>,
    resourceNamespace: Option<string>,
    widgets: seq<WidgetEntry>,
    widgetDirectory: Option<string>,
    widgetNamespace: Option<string>)

  /** `pages`: appends the pages and queues each of them for Livewire. */
  function Pages(p: Panel, pages: seq<ClassName>, env: Env): (r: Panel)
    ensures |r.pages| == |p.pages| + |pages|
    ensures r.pages[..|p.pages|] == p.pages && r.pages[|p.pages|..] == pages
    ensures r.livewireComponents.Keys == p.livewireComponents.Keys + NamesOf(pages, env.nameOf)
    ensures forall i :: 0 <= i < |pages| ==> env.nameOf(pages[i]) in r.livewireComponents
    ensures forall i :: 0 <= i < |pages| && LastWithName(pages, i, env.nameOf) ==> r.livewireComponents[env.nameOf(pages[i])] == pages[i]
    ensures forall n :: n in p.livewireComponents && n !in NamesOf(pages, env.nameOf) ==> n in r.livewireComponents && r.livewireComponents[n] == p.livewireComponents[n]
    ensures r.(pages := p.pages, livewireComponents := p.livewireComponents) == p
  {
    p.(pages := p.pages + pages, livewireComponents := QueueAll(p.livewireComponents, pages, env.nameOf))
  }

  /** `resources`: appends the resources; the registration buffer is left alone. */
  function Resources(p: Panel, resources: seq<ClassName>): (r: Panel)
    ensures |r.resources| == |p.resources| + |resources|
    ensures r.resources[..|p.resources|] == p.resources && r.resources[|p.resources|..] == resources
    ensures r.livewireComponents == p.livewireComponents
    ensures r.(resources := p.resources) == p
  {
    p.(resources := p.resources + resources)
  }

  /** `widgets`: appends the widget entries and queues the class behind each of them. */
  function Widgets(p: Panel, widgets: seq<WidgetEntry>, env: Env): (r: Panel)
    ensures |r.widgets| == |p.widgets| + |widgets|
    ensures r.widgets[..|p.widgets|] == p.widgets && r.widgets[|p.widgets|..] == widgets
    ensures r.livewireComponents.Keys == p.livewireComponents.Keys + NamesOf(NormalizeWidgetClasses(widgets), env.nameOf)
    ensures forall i :: 0 <= i < |widgets| ==> env.nameOf(NormalizeWidgetClass(widgets[i])) in r.livewireComponents
    ensures forall i :: 0 <= i < |widgets| && LastWithName(NormalizeWidgetClasses(widgets), i, env.nameOf)
                        ==> r.livewireComponents[env.nameOf(NormalizeWidgetClass(widgets[i]))] == NormalizeWidgetClass(widgets[i])
    ensures forall n :: n in p.livewireComponents && n !in NamesOf(NormalizeWidgetClasses(widgets), env.nameOf)
                        ==> n in r.livewireComponents && r.livewireComponents[n] == p.livewireComponents[n]
    ensures r.(widgets := p.widgets, livewireComponents := p.livewireComponents) == p
  {
    var classes := NormalizeWidgetClasses(widgets);
    p.(widgets := p.widgets + widgets, livewireComponents := QueueAll(p.livewireComponents, classes, env.nameOf))
  }

  /** Two `pages` calls register exactly what one call with both lists does. */
  lemma PagesCompose(p: Panel, a: seq<ClassName>, b: seq<ClassName>, env: Env)
    ensures Pages(Pages(p, a, env), b, env) == Pages(p, a + b, env)
  {
    QueueAllAppend(p.livewireComponents, a, b, env.nameOf);
    AppendAssoc(p.pages, a, b);
  }

  /** Two `resources` calls register exactly what one call with both lists does. */
  lemma ResourcesCompose(p: Panel, a: seq<ClassName>, b: seq<ClassName>)
    ensures Resources(Resources(p, a), b) == Resources(p, a + b)
  {
    AppendAssoc(p.resources, a, b);
  }

  /** `widgets` appends the entries and queues their classes, and that is all it does. */
  lemma WidgetsUnfold(p: Panel, ws: seq<WidgetEntry>, env: Env)
    ensures Widgets(p, ws, env)
         == p.(widgets := p.widgets + ws, livewireComponents := QueueAll(p.livewireComponents, NormalizeWidgetClasses(ws), env.nameOf))
  {
  }

  /** Two `widgets` calls register exactly what one call with both lists does. */
  lemma WidgetsCompose(p: Panel, a: seq<WidgetEntry>, b: seq<WidgetEntry>, env: Env)
    ensures Widgets(Widgets(p, a, env), b, env) == Widgets(p, a + b, env)
  {
    var ca, cb := NormalizeWidgetClasses(a), NormalizeWidgetClasses(b);
    NormalizeWidgetClassesAppend(a, b);
    QueueAllAppend(p.livewireComponents, ca, cb, env.nameOf);
    AppendAssoc(p.widgets, a, b);
    WidgetsUnfold(p, a, env);
    WidgetsUnfold(Widgets(p, a, env), b, env);
    WidgetsUnfold(p, a + b, env);
  }

  /** PHP's `??=` on a nullable string property: only a null property takes the new value. */
  function KeepFirst(current: Option<string>, value: string): (r: Option<string>)
    ensures r.Some?
    ensures current.Some? ==> r == current
    ensures current.None? ==> r.value == value
  {
    if current.None? then Some(value) else current
  }

  /** Discovered classes, as widget entries. */
  function AsWidgetEntries(cs: seq<ClassName>): (r: seq<WidgetEntry>)
    ensures |r| == |cs|
    ensures forall i :: 0 <= i < |cs| ==> r[i] == WidgetClass(cs[i])
  {
    if |cs| == 0 then [] else [WidgetClass(cs[0])] + AsWidgetEntries(cs[1..])
  }

  /**
   `discoverPages`: records the first directory and namespace ever given, then
   appends the discovered pages, always from the arguments of this call.
   */
  function DiscoverPages(p: Panel, directory: string, namespace: string, env: Env): (r: Panel)
    ensures p.pageDirectory.Some? ==> r.pageDirectory == p.pageDirectory
    ensures p.pageDirectory.None? ==> r.pageDirectory == Some(directory)
    ensures p.pageNamespace.Some? ==> r.pageNamespace == p.pageNamespace
    ensures p.pageNamespace.None? ==> r.pageNamespace == Some(namespace)
    ensures |p.pages| <= |r.pages| && r.pages[..|p.pages|] == p.pages
    ensures r.pages[|p.pages|..] == AcceptedClasses(PageBase, Candidates(directory, namespace, env), env)
    ensures r.livewireComponents == QueueAll(p.livewireComponents, QueuedClasses(Candidates(directory, namespace, env), env), env.nameOf)
    ensures Skipped(directory, namespace, env) ==> r.pages == p.pages && r.livewireComponents == p.livewireComponents
    ensures r.(pages := p.pages, livewireComponents := p.livewireComponents,
               pageDirectory := p.pageDirectory, pageNamespace := p.pageNamespace) == p
  {
    var located := p.(pageDirectory := KeepFirst(p.pageDirectory, directory),
                      pageNamespace := KeepFirst(p.pageNamespace, namespace));
    var d := DiscoverComponents(PageBase, directory, namespace, located.livewireComponents, env);
    located.(pages := located.pages + d.found, livewireComponents := d.buffer)
  }

  /**
   `discoverResources`: records the first directory and namespace ever given,
   then appends the discovered resources, always from the arguments of this call.
   */
  function DiscoverResources(p: Panel, directory: string, namespace: string, env: Env): (r: Panel)
    ensures p.resourceDirectory.Some? ==> r.resourceDirectory == p.resourceDirectory
    ensures p.resourceDirectory.None? ==> r.resourceDirectory == Some(directory)
    ensures p.resourceNamespace.Some? ==> r.resourceNamespace == p.resourceNamespace
    ensures p.resourceNamespace.None? ==> r.resourceNamespace == Some(namespace)
    ensures |p.resources| <= |r.resources| && r.resources[..|p.resources|] == p.resources
    ensures r.resources[|p.resources|..] == AcceptedClasses(ResourceBase, Candidates(directory, namespace, env), env)
    ensures r.livewireComponents == QueueAll(p.livewireComponents, QueuedClasses(Candidates(directory, namespace, env), env), env.nameOf)
    ensures Skipped(directory, namespace, env) ==> r.resources == p.resources && r.livewireComponents == p.livewireComponents
    ensures r.(resources := p.resources, livewireComponents := p.livewireComponents,
               resourceDirectory := p.resourceDirectory, resourceNamespace := p.resourceNamespace) == p
  {
    var located := p.(resourceDirectory := KeepFirst(p.resourceDirectory, directory),
                      resourceNamespace := KeepFirst(p.resourceNamespace, namespace));
    var d := DiscoverComponents(ResourceBase, directory, namespace, located.livewireComponents, env);
    located.(resources := located.resources + d.found, livewireComponents := d.buffer)
  }

  /**
   `discoverWidgets`: records the first directory and namespace ever given,
   then appends the discovered widget classes, always from the arguments of this call.
   */
  function DiscoverWidgets(p: Panel, directory: string, namespace: string, env: Env): (r: Panel)
    ensures p.widgetDirectory.Some? ==> r.widgetDirectory == p.widgetDirectory
    ensures p.widgetDirectory.None? ==> r.widgetDirectory == Some(directory)
    ensures p.widgetNamespace.Some? ==> r.widgetNamespace == p.widgetNamespace
    ensures p.widgetNamespace.None? ==> r.widgetNamespace == Some(namespace)
    ensures |p.widgets| <= |r.widgets| && r.widgets[..|p.widgets|] == p.widgets
    ensures r.widgets[|p.widgets|..] == AsWidgetEntries(AcceptedClasses(WidgetBase, Candidates(directory, namespace, env), env))
    ensures r.livewireComponents == QueueAll(p.livewireComponents, QueuedClasses(Candidates(directory, namespace, env), env), env.nameOf)
    ensures Skipped(directory, namespace, env) ==> r.widgets == p.widgets && r.livewireComponents == p.livewireComponents
    ensures r.(widgets := p.widgets, livewireComponents := p.livewireComponents,
               widgetDirectory := p.widgetDirectory, widgetNamespace := p.widgetNamespace) == p
  {
    var located := p.(widgetDirectory := KeepFirst(p.widgetDirectory, directory),
                      widgetNamespace := KeepFirst(p.widgetNamespace, namespace));
    var d := DiscoverComponents(WidgetBase, directory, namespace, located.livewireComponents, env);
    located.(widgets := located.widgets + AsWidgetEntries(d.found), livewireComponents := d.buffer)
  }

  /** `getPages`: the registered pages without duplicates, in order of first registration. */
  function GetPages(p: Panel): (r: seq<ClassName>)
    ensures IsDedupOf(r, p.pages)
  {
    Dedup(p.pages)
  }

  /** `getResources`: the registered resources without duplicates, in order of first registration. */
  function GetResources(p: Panel): (r: seq<ClassName>)
    ensures IsDedupOf(r, p.resources)
  {
    Dedup(p.resources)
  }

  /** The sort key of a widget entry: `getSort()` of the widget class behind it. */
  function WidgetSortKey(env: Env): WidgetEntry -> int
  {
    w => env.getSort(NormalizeWidgetClass(w))
  }

  /**
   `getWidgets`: the registered widgets without duplicates, in non-decreasing
   order of sort key, entries with equal keys in order of first registration.
   */
  function GetWidgets(p: Panel, env: Env): (r: seq<WidgetEntry>)
    ensures IsStableSortOf(r, Dedup(p.widgets), WidgetSortKey(env))
    ensures multiset(r) == multiset(Dedup(p.widgets))
  {
    SortBy(Dedup(p.widgets), WidgetSortKey(env))
  }

  /** `getWidgets` lists every registered widget exactly once and nothing else. */
  lemma GetWidgetsMembers(p: Panel, env: Env)
    ensures NoDuplicates(GetWidgets(p, env))
    ensures forall i :: 0 <= i < |GetWidgets(p, env)| ==> GetWidgets(p, env)[i] in p.widgets
    ensures forall i :: 0 <= i < |p.widgets| ==> p.widgets[i] in GetWidgets(p, env)
  {
    var d := Dedup(p.widgets);
    var r := GetWidgets(p, env);
    PermutationDistinct(d, r);
    forall i | 0 <= i < |r|
      ensures r[i] in p.widgets
    {
      assert r[i] in multiset(r);
    }
    forall i | 0 <= i < |p.widgets|
      ensures p.widgets[i] in r
    {
      assert p.widgets[i] in d;
      assert p.widgets[i] in multiset(d);
    }
  }

  /** Widgets with equal sort keys come out in the order they were first registered. */
  lemma GetWidgetsTieOrder(p: Panel, env: Env, i: nat, j: nat)
    requires i < j < |GetWidgets(p, env)|
    requires WidgetSortKey(env)(GetWidgets(p, env)[i]) == WidgetSortKey(env)(GetWidgets(p, env)[j])
    ensures GetWidgets(p, env)[i] in p.widgets && GetWidgets(p, env)[j] in p.widgets
    ensures FirstIndex(p.widgets, GetWidgets(p, env)[i]) < FirstIndex(p.widgets, GetWidgets(p, env)[j])
  {
    GetWidgetsMembers(p, env);
    var r := GetWidgets(p, env);
    var d := Dedup(p.widgets);
    StableSortTieOrder(r, d, WidgetSortKey(env), i, j);
    var i', j' :| 0 <= i' < j' < |d| && d[i'] == r[i] && d[j'] == r[j];
  }

  /** The argument of `getModelResource`: a model class name, or a model instance of some class. */
  datatype ModelRef = ModelClass(name: ClassName) | ModelInstance(modelClass: ClassName)

  /** A model instance stands for its class. */
  function ModelClassOf(m: ModelRef): ClassName
  {
    match m
    case ModelClass(c) => c
    case ModelInstance(c) => c
  }

  /**
   `getModelResource`: the first registered resource whose model is the given
   model's class, or null when no resource has that model.
   */
  function GetModelResource(p: Panel, model: ModelRef, env: Env): (r: Option<ClassName>)
    ensures r.None? <==> forall i :: 0 <= i < |p.resources| ==> env.getModel(p.resources[i]) != ModelClassOf(model)
    ensures r.Some? ==> r.value in p.resources && env.getModel(r.value) == ModelClassOf(model)
    ensures r.Some? ==> forall i :: 0 <= i < FirstIndex(p.resources, r.value) ==> env.getModel(p.resources[i]) != ModelClassOf(model)
  {
    var cls := ModelClassOf(model);
    var matches := (res: ClassName) => env.getModel(res) == cls;
    FindFirstDedup(p.resources, matches);
    FindFirst(GetResources(p), matches)
  }

  /** Registering more resources never changes which resource an already resolvable model maps to. */
  lemma GetModelResourceFirstWins(p: Panel, more: seq<ClassName>, model: ModelRef, env: Env)
    requires exists i :: 0 <= i < |p.resources| && env.getModel(p.resources[i]) == ModelClassOf(model)
    ensures GetModelResource(Resources(p, more), model, env) == GetModelResource(p, model, env)
  {
    var cls := ModelClassOf(model);
    var matches := (res: ClassName) => env.getModel(res) == cls;
    FindFirstDedup(p.resources, matches);
    FindFirstDedup(p.resources + more, matches);
    FindFirstAppend(p.resources, more, matches);
  }

  /** Registering more pages keeps the pages `getPages` already returned, in place, and exposes every new one. */
  lemma PagesExtendGetPages(p: Panel, pages: seq<ClassName>, env: Env)
    ensures var before := GetPages(p);
            var after := GetPages(Pages(p, pages, env));
            |before| <= |after| && after[..|before|] == before
            && forall i :: 0 <= i < |pages| ==> pages[i] in after
  {
    var q := Pages(p, pages, env);
    assert q.pages == p.pages + pages;
    DedupAppend(p.pages, pages);
    forall i | 0 <= i < |pages|
      ensures pages[i] in GetPages(q)
    {
      assert q.pages[|p.pages| + i] == pages[i];
    }
  }

  /** Registering more resources keeps the resources `getResources` already returned, in place. */
  lemma ResourcesExtendGetResources(p: Panel, resources: seq<ClassName>)
    ensures var before := GetResources(p);
            var after := GetResources(Resources(p, resources));
            |before| <= |after| && after[..|before|] == before
            && forall i :: 0 <= i < |resources| ==> resources[i] in after
  {
    var q := Resources(p, resources);
    assert q.resources == p.resources + resources;
    DedupAppend(p.resources, resources);
    forall i | 0 <= i < |resources|
      ensures resources[i] in GetResources(q)
    {
      assert q.resources[|p.resources| + i] == resources[i];
    }
  }
}

=== FILE: registration.dfy ===
/**
 `registerLivewireComponents`: the classes a panel queues when it boots (the
 built-in Livewire components, the authentication pages that are Livewire
 components, and every page, relation manager and widget of every registered
 resource), followed by the flush of the buffer into Livewire's table.
 */
module Registration {
  import opened Framework
  import opened ComponentBuffer
  import opened Seqs
  import opened HasComponents

  /** The authentication features of the panel and the route action each one uses. */
  datatype AuthConfig = AuthConfig(
    hasEmailVerification: bool,
    emailVerificationPromptRouteAction: ClassName,
    hasLogin: bool,
    loginRouteAction: ClassName,
    hasPasswordReset: bool,
    requestPasswordResetRouteAction: ClassName,
    resetPasswordRouteAction: ClassName,
    hasRegistration: bool,
    registrationRouteAction: ClassName)

  /** The components every panel registers, in the order they are queued. */
  const BuiltInComponents: seq<ClassName> := [DatabaseNotifications, EditProfile, GlobalSearch, Notifications]

  /** `c` is the route action of an authentication feature the panel has switched on. */
  predicate EnabledAction(auth: AuthConfig, c: ClassName)
  {
    (auth.hasEmailVerification && c == auth.emailVerificationPromptRouteAction)
    || (auth.hasLogin && c == auth.loginRouteAction)
    || (auth.hasPasswordReset && (c == auth.requestPasswordResetRouteAction || c == auth.resetPasswordRouteAction))
    || (auth.hasRegistration && c == auth.registrationRouteAction)
  }

  /** The one-element list holding `c` when `c` is a Livewire component, and the empty list otherwise. */
  function IfLivewire(c: ClassName, env: Env): (r: seq<ClassName>)
    ensures forall x :: x in r <==> x == c && IsLivewire(c, env)
  {
    if IsLivewire(c, env) then [c] else []
  }

  /**
   The authentication route actions that are queued: email verification prompt,
   login, both password reset steps and registration, each when its feature is
   on and the action is a Livewire component.
   */
  function AuthComponents(auth: AuthConfig, env: Env): (r: seq<ClassName>)
    ensures forall c :: c in r <==> EnabledAction(auth, c) && IsLivewire(c, env)
    ensures |r| <= 5
  {
    (if auth.hasEmailVerification then IfLivewire(auth.emailVerificationPromptRouteAction, env) else [])
    + (if auth.hasLogin then IfLivewire(auth.loginRouteAction, env) else [])
    + (if auth.hasPasswordReset
       then IfLivewire(auth.requestPasswordResetRouteAction, env) + IfLivewire(auth.resetPasswordRouteAction, env)
       else [])
    + (if auth.hasRegistration then IfLivewire(auth.registrationRouteAction, env) else [])
  }

  /** The relation manager classes behind one entry of a resource's relations. */
  predicate Manages(e: RelationEntry, c: ClassName)
  {
    match e
    case Single(m) => NormalizeRelationManagerClass(m) == c
    case RelationGroup(ms) => exists j :: 0 <= j < |ms| && NormalizeRelationManagerClass(ms[j]) == c
  }

  /** The classes of one relation entry: a group contributes each of its managers, in order. */
  function EntryManagers(e: RelationEntry): (r: seq<ClassName>)
    ensures forall c :: c in r <==> Manages(e, c)
  {
    match e
    case Single(m) => [NormalizeRelationManagerClass(m)]
    case RelationGroup(ms) => GroupManagers(ms)
  }

  /** The classes of the managers of a relation group, in order. */
  function GroupManagers(ms: seq<ManagerRef>): (r: seq<ClassName>)
    ensures |r| == |ms|
    ensures forall j :: 0 <= j < |ms| ==> r[j] == NormalizeRelationManagerClass(ms[j])
  {
    if |ms| == 0 then [] else [NormalizeRelationManagerClass(ms[0])] + GroupManagers(ms[1..])
  }

  /** The relation manager classes of a resource's relations, groups flattened in place. */
  function ManagerClasses(relations: seq<RelationEntry>): (r: seq<ClassName>)
    ensures forall c :: c in r <==> exists i :: 0 <= i < |relations| && Manages(relations[i], c)
  {
    if |relations| == 0 then []
    else
      var rest := ManagerClasses(relations[1..]);
      assert forall i :: 0 < i < |relations| ==> relations[1..][i - 1] == relations[i];
      EntryManagers(relations[0]) + rest
  }

  /** What one resource queues: its pages, then its relation managers, then its widgets. */
  function ResourceComponents(res: ClassName, env: Env): (r: seq<ClassName>)
    ensures forall c :: c in r <==>
      c in env.resourcePages(res)
      || (exists i :: 0 <= i < |env.resourceRelations(res)| && Manages(env.resourceRelations(res)[i], c))
      || (exists i :: 0 <= i < |env.resourceWidgets(res)| && NormalizeWidgetClass(env.resourceWidgets(res)[i]) == c)
  {
    var widgets := NormalizeWidgetClasses(env.resourceWidgets(res));
    assert forall c :: c in widgets <==>
      exists i :: 0 <= i < |env.resourceWidgets(res)| && NormalizeWidgetClass(env.resourceWidgets(res)[i]) == c;
    env.resourcePages(res) + ManagerClasses(env.resourceRelations(res)) + widgets
  }

  /** What a list of resources queues, resource after resource. */
  function ResourcesComponents(rs: seq<ClassName>, env: Env): (r: seq<ClassName>)
    ensures forall c :: c in r <==> exists i :: 0 <= i < |rs| && c in ResourceComponents(rs[i], env)
  {
    if |rs| == 0 then []
    else
      var rest := ResourcesComponents(rs[1..], env);
      assert forall i :: 0 < i < |rs| ==> rs[1..][i - 1] == rs[i];
      ResourceComponents(rs[0], env) + rest
  }

  /** A resource registered twice queues its components once, as if registered once. */
  lemma {:induction false} ResourcesComponentsOfDedup(rs: seq<ClassName>, env: Env)
    ensures forall c :: c in ResourcesComponents(Dedup(rs), env) <==>
      exists i :: 0 <= i < |rs| && c in ResourceComponents(rs[i], env)
  {
    var d := Dedup(rs);
    forall c | c in ResourcesComponents(d, env)
      ensures exists i :: 0 <= i < |rs| && c in ResourceComponents(rs[i], env)
    {
      var i :| 0 <= i < |d| && c in ResourceComponents(d[i], env);
      var j := FirstIndex(rs, d[i]);
    }
    forall c, i | 0 <= i < |rs| && c in ResourceComponents(rs[i], env)
      ensures c in ResourcesComponents(d, env)
    {
      var k := FirstIndex(d, rs[i]);
    }
  }

  /** Every class `registerLivewireComponents` queues, in queueing order. */
  function RegistrationQueue(p: Panel, auth: AuthConfig, env: Env): (r: seq<ClassName>)
    ensures |BuiltInComponents| <= |r| && r[..|BuiltInComponents|] == BuiltInComponents
  {
    BuiltInComponents + AuthComponents(auth, env) + ResourcesComponents(GetResources(p), env)
  }

  /**
   A class is queued exactly when it is built in, the route action of an enabled
   authentication feature that is a Livewire component, or a page, relation
   manager or widget of a registered resource.
   */
  lemma RegistrationQueueMembers(p: Panel, auth: AuthConfig, env: Env, c: ClassName)
    ensures c in RegistrationQueue(p, auth, env) <==>
      c in BuiltInComponents
      || (EnabledAction(auth, c) && IsLivewire(c, env))
      || exists i :: 0 <= i < |p.resources| && c in ResourceComponents(p.resources[i], env)
  {
    ResourcesComponentsOfDedup(p.resources, env);
  }

  /**
   `registerLivewireComponents`: queues everything `RegistrationQueue` lists
   into the panel's buffer, binds every buffered pair into Livewire's `table`,
   and empties the buffer. Each name ends up bound to the class queued last under
   it; names nobody queued keep their earlier binding.
   */
  method RegisterLivewireComponents(p: Panel, auth: AuthConfig, env: Env, table: Buffer) returns (q: Panel, bound: Buffer)
    ensures q.livewireComponents == map[]
    ensures q == p.(livewireComponents := map[])
    ensures bound.Keys == table.Keys + p.livewireComponents.Keys + NamesOf(RegistrationQueue(p, auth, env), env.nameOf)
    ensures forall i :: 0 <= i < |RegistrationQueue(p, auth, env)| ==> env.nameOf(RegistrationQueue(p, auth, env)[i]) in bound
    ensures forall i :: 0 <= i < |RegistrationQueue(p, auth, env)| && LastWithName(RegistrationQueue(p, auth, env), i, env.nameOf)
                        ==> bound[env.nameOf(RegistrationQueue(p, auth, env)[i])] == RegistrationQueue(p, auth, env)[i]
    ensures forall n :: n in p.livewireComponents && n !in NamesOf(RegistrationQueue(p, auth, env), env.nameOf)
                        ==> n in bound && bound[n] == p.livewireComponents[n]
    ensures forall n :: n in table && n !in p.livewireComponents && n !in NamesOf(RegistrationQueue(p, auth, env), env.nameOf)
                        ==> n in bound && bound[n] == table[n]
    ensures forall n :: n in bound ==>
      (n in table && bound[n] == table[n])
      || (n in p.livewireComponents && bound[n] == p.livewireComponents[n])
      || (bound[n] in RegistrationQueue(p, auth, env) && env.nameOf(bound[n]) == n)
  {
    bound := QueueAndBind(p.livewireComponents, RegistrationQueue(p, auth, env), env.nameOf, table);
    q := p.(livewireComponents := map[]);
  }
}

=== FILE: seqs.dfy ===
/**
 Order-preserving deduplication and first-match search over sequences: the
 behaviour of PHP's `array_unique` (the first of equal elements is kept) and of
 a `foreach` that returns on the first hit.
 */
module Seqs {
  import opened Wrappers

  /** True iff no element of `s` occurs twice. */
  predicate NoDuplicates<T(==)>(s: seq<T>)
  {
    forall i, j :: 0 <= i < j < |s| ==> s[i] != s[j]
  }

  /** Concatenation is associative. */
  lemma AppendAssoc<T>(a: seq<T>, b: seq<T>, c: seq<T>)
    ensures (a + b) + c == a + (b + c)
  {
  }

  /** A sequence without duplicates holds each value at most once, counted as a multiset. */
  lemma {:induction false} DistinctCountsOnce<T>(s: seq<T>, x: T)
    requires NoDuplicates(s)
    ensures multiset(s)[x] <= 1
    decreases |s|
  {
    if |s| > 0 {
      var init := s[..|s| - 1];
      assert s == init + [s[|s| - 1]];
      assert forall i, j :: 0 <= i < j < |init| ==> init[i] == s[i] && init[j] == s[j];
      DistinctCountsOnce(init, x);
      assert forall i :: 0 <= i < |init| ==> init[i] != s[|s| - 1];
    }
  }

  /** An element occurring at two positions is counted at least twice. */
  lemma CountAtTwoPositions<T>(r: seq<T>, i: nat, j: nat)
    requires i < j < |r|
    ensures multiset(r)[r[i]] >= if r[i] == r[j] then 2 else 1
  {
    assert r == r[..j] + [r[j]] + r[j + 1..];
    assert r[..j][i] == r[i];
    assert r[i] in multiset(r[..j]);
  }

  /** A permutation of a sequence without duplicates has none either. */
  lemma PermutationDistinct<T>(s: seq<T>, r: seq<T>)
    requires NoDuplicates(s) && multiset(r) == multiset(s)
    ensures NoDuplicates(r)
  {
    forall i, j | 0 <= i < j < |r|
      ensures r[i] != r[j]
    {
      CountAtTwoPositions(r, i, j);
      DistinctCountsOnce(s, r[i]);
    }
  }

  /** Position of the first occurrence of `x` in `s`. */
  function FirstIndex<T(==)>(s: seq<T>, x: T): (i: nat)
    requires x in s
    ensures i < |s| && s[i] == x
    ensures x !in s[..i]
  {
    if s[0] == x then 0
    else
      var k := FirstIndex(s[1..], x);
      assert s[..k + 1] == [s[0]] + s[1..][..k];
      k + 1
  }

  /** Any position holding `x` with no earlier `x` is the first index. */
  lemma FirstIndexUnique<T>(s: seq<T>, x: T, i: nat)
    requires i < |s| && s[i] == x && x !in s[..i]
    ensures FirstIndex(s, x) == i
  {
  }

  /** First indices do not change when elements are added at the end. */
  lemma FirstIndexPrefix<T>(s: seq<T>, n: nat, x: T)
    requires n <= |s| && x in s[..n]
    ensures FirstIndex(s, x) == FirstIndex(s[..n], x)
  {
    var k := FirstIndex(s[..n], x);
    assert s[..n][..k] == s[..k];
    FirstIndexUnique(s, x, k);
  }

  /** What the last element of `s` does to first indices. */
  lemma FirstIndexExtend<T>(s: seq<T>)
    requires |s| > 0
    ensures forall y :: y in s[..|s| - 1] ==> FirstIndex(s, y) == FirstIndex(s[..|s| - 1], y)
    ensures s[|s| - 1] !in s[..|s| - 1] ==> FirstIndex(s, s[|s| - 1]) == |s| - 1
  {
    forall y | y in s[..|s| - 1] {
      FirstIndexPrefix(s, |s| - 1, y);
    }
    if s[|s| - 1] !in s[..|s| - 1] {
      FirstIndexUnique(s, s[|s| - 1], |s| - 1);
    }
  }

  /**
   `r` is `s` without duplicates: every distinct element of `s` appears exactly
   once, and elements are ordered by the position of their first occurrence in `s`.
   */
  predicate IsDedupOf<T(==)>(r: seq<T>, s: seq<T>)
  {
    && NoDuplicates(r)
    && (forall i :: 0 <= i < |r| ==> r[i] in s)
    && (forall i :: 0 <= i < |s| ==> s[i] in r)
    && (forall i, j :: 0 <= i < j < |r| ==> FirstIndex(s, r[i]) < FirstIndex(s, r[j]))
  }

  /** `array_unique`: drops every element equal to an earlier one. */
  function Dedup<T(==)>(s: seq<T>): (r: seq<T>)
    ensures IsDedupOf(r, s)
    decreases |s|
  {
    if |s| == 0 then []
    else
      var init := s[..|s| - 1];
      var x := s[|s| - 1];
      var d := Dedup(init);
      assert s == init + [x];
      FirstIndexExtend(s);
      if x in d then d else d + [x]
  }

  /** When the last element of `s` already occurred, a dedup of `s` is a dedup of the rest. */
  lemma DedupOfRepeatedLast<T>(s: seq<T>, r: seq<T>)
    requires |s| > 0 && s[|s| - 1] in s[..|s| - 1]
    requires IsDedupOf(r, s)
    ensures IsDedupOf(r, s[..|s| - 1])
  {
    var init := s[..|s| - 1];
    assert s == init + [s[|s| - 1]];
    FirstIndexExtend(s);
    forall i | 0 <= i < |r|
      ensures r[i] in init
    {
      assert r[i] in s;
    }
  }

  /** When the last element of `s` is new, it ends every dedup of `s`. */
  lemma FreshLastEndsDedup<T>(s: seq<T>, r: seq<T>)
    requires |s| > 0 && s[|s| - 1] !in s[..|s| - 1]
    requires IsDedupOf(r, s)
    ensures |r| > 0 && r[|r| - 1] == s[|s| - 1]
  {
    var x := s[|s| - 1];
    FirstIndexUnique(s, x, |s| - 1);
    assert x in r;
    var k :| 0 <= k < |r| && r[k] == x;
    assert r[|r| - 1] in s;
    assert FirstIndex(s, r[|r| - 1]) <= FirstIndex(s, r[k]);
  }

  /** When the last element of `s` is new, the rest of a dedup of `s` is a dedup of the rest of `s`. */
  lemma DedupOfFreshLast<T>(s: seq<T>, r: seq<T>)
    requires |s| > 0 && s[|s| - 1] !in s[..|s| - 1]
    requires IsDedupOf(r, s)
    ensures |r| > 0 && r[|r| - 1] == s[|s| - 1]
    ensures IsDedupOf(r[..|r| - 1], s[..|s| - 1])
  {
    FreshLastEndsDedup(s, r);
    var init := s[..|s| - 1];
    var x := s[|s| - 1];
    var r' := r[..|r| - 1];
    assert s == init + [x];
    FirstIndexExtend(s);
    forall i | 0 <= i < |r'|
      ensures r'[i] in init
    {
      assert r'[i] == r[i] != x;
      assert r[i] in s;
    }
    forall i | 0 <= i < |init|
      ensures init[i] in r'
    {
      assert init[i] == s[i];
      var j :| 0 <= j < |r| && r[j] == init[i];
      assert r'[j] == init[i];
    }
    forall i, j | 0 <= i < j < |r'|
      ensures FirstIndex(init, r'[i]) < FirstIndex(init, r'[j])
    {
      assert r'[i] == r[i] && r'[j] == r[j];
    }
  }

  /** A non-empty sequence whose elements all occur in `s` forces `s` to be non-empty. */
  lemma MembersNeedElements<T>(r: seq<T>, s: seq<T>)
    requires forall i :: 0 <= i < |r| ==> r[i] in s
    ensures |r| > 0 ==> |s| > 0
  {
    if |r| > 0 {
      assert r[0] in s;
    }
  }

  /** One step of `Dedup`: the last element is kept exactly when it did not occur before. */
  lemma DedupStep<T>(s: seq<T>)
    requires |s| > 0
    ensures s[|s| - 1] in s[..|s| - 1] ==> Dedup(s) == Dedup(s[..|s| - 1])
    ensures s[|s| - 1] !in s[..|s| - 1] ==> Dedup(s) == Dedup(s[..|s| - 1]) + [s[|s| - 1]]
  {
    var init := s[..|s| - 1];
    var d := Dedup(init);
    assert forall i :: 0 <= i < |d| ==> d[i] in init;
    assert forall i :: 0 <= i < |init| ==> init[i] in d;
  }

  /** The specification `IsDedupOf` has exactly one solution, and `Dedup` computes it. */
  lemma {:induction false} DedupUnique<T>(s: seq<T>, r: seq<T>)
    requires IsDedupOf(r, s)
    ensures r == Dedup(s)
    decreases |s|, 1
  {
    if |s| == 0 {
      MembersNeedElements(r, s);
    } else if s[|s| - 1] in s[..|s| - 1] {
      DedupUniqueRepeated(s, r);
    } else {
      DedupUniqueFresh(s, r);
    }
  }

  /** `DedupUnique` when the last element of `s` occurred before. */
  lemma {:induction false} DedupUniqueRepeated<T>(s: seq<T>, r: seq<T>)
    requires |s| > 0 && s[|s| - 1] in s[..|s| - 1]
    requires IsDedupOf(r, s)
    ensures r == Dedup(s)
    decreases |s|, 0
  {
    DedupStep(s);
    DedupOfRepeatedLast(s, r);
    DedupUnique(s[..|s| - 1], r);
  }

  /** `DedupUnique` when the last element of `s` is new. */
  lemma {:induction false} DedupUniqueFresh<T>(s: seq<T>, r: seq<T>)
    requires |s| > 0 && s[|s| - 1] !in s[..|s| - 1]
    requires IsDedupOf(r, s)
    ensures r == Dedup(s)
    decreases |s|, 0
  {
    DedupStep(s);
    DedupOfFreshLast(s, r);
    var r' := r[..|r| - 1];
    DedupUnique(s[..|s| - 1], r');
    assert r == r' + [s[|s| - 1]];
  }

  /** A sequence without duplicates is its own deduplication. */
  lemma DedupOfDistinct<T>(s: seq<T>)
    requires NoDuplicates(s)
    ensures Dedup(s) == s
  {
    forall i | 0 <= i < |s|
      ensures FirstIndex(s, s[i]) == i
    {
      assert s[i] !in s[..i] by {
        assert forall j :: 0 <= j < i ==> s[..i][j] == s[j] != s[i];
      }
      FirstIndexUnique(s, s[i], i);
    }
    DedupUnique(s, s);
  }

  /** Deduplicating twice changes nothing. */
  lemma DedupIdempotent<T>(s: seq<T>)
    ensures Dedup(Dedup(s)) == Dedup(s)
  {
    DedupOfDistinct(Dedup(s));
  }

  /** Appending never disturbs the deduplicated prefix already exposed. */
  lemma {:induction false} DedupAppend<T>(a: seq<T>, b: seq<T>)
    ensures |Dedup(a)| <= |Dedup(a + b)|
    ensures Dedup(a + b)[..|Dedup(a)|] == Dedup(a)
    decreases |b|
  {
    if |b| == 0 {
      assert a + b == a;
    } else {
      var b' := b[..|b| - 1];
      assert (a + b)[..|a + b| - 1] == a + b';
      DedupAppend(a, b');
      DedupStep(a + b);
    }
  }

  /** The first element of `s` satisfying `p`, or `None` when there is none. */
  function FindFirst<T(==)>(s: seq<T>, p: T -> bool): (r: Option<T>)
    ensures r.None? <==> (forall x :: x in s ==> !p(x))
    ensures r.Some? ==> r.value in s && p(r.value)
    ensures r.Some? ==> forall i :: 0 <= i < FirstIndex(s, r.value) ==> !p(s[i])
  {
    if |s| == 0 then None
    else if p(s[0]) then Some(s[0])
    else
      var r := FindFirst(s[1..], p);
      assert forall x :: x in s ==> x == s[0] || x in s[1..];
      r
  }

  /** A match found in `a` is still the first match once `b` is appended. */
  lemma {:induction false} FindFirstAppend<T>(a: seq<T>, b: seq<T>, p: T -> bool)
    requires FindFirst(a, p).Some?
    ensures FindFirst(a + b, p) == FindFirst(a, p)
  {
    assert (a + b)[0] == a[0];
    if !p(a[0]) {
      assert (a + b)[1..] == a[1..] + b;
      FindFirstAppend(a[1..], b, p);
    }
  }

  /** Searching the deduplicated sequence finds what searching the original finds. */
  lemma FindFirstDedup<T>(s: seq<T>, p: T -> bool)
    ensures FindFirst(Dedup(s), p) == FindFirst(s, p)
  {
    if FindFirst(s, p).Some? {
      FindFirstDedupSome(s, p);
    } else {
      FindFirstDedupNone(s, p);
    }
  }

  /** With no match in `s`, there is none in its deduplication. */
  lemma FindFirstDedupNone<T>(s: seq<T>, p: T -> bool)
    requires FindFirst(s, p).None?
    ensures FindFirst(Dedup(s), p).None?
  {
    var d := Dedup(s);
    forall x | x in d
      ensures !p(x)
    {
      var i :| 0 <= i < |d| && d[i] == x;
      assert d[i] in s;
    }
  }

  /** A match in `s` is found first at the same element in its deduplication. */
  lemma FindFirstDedupSome<T>(s: seq<T>, p: T -> bool)
    requires FindFirst(s, p).Some?
    ensures FindFirst(Dedup(s), p) == FindFirst(s, p)
  {
    var d := Dedup(s);
    var v := FindFirst(s, p).value;
    var iv := FirstIndex(s, v);
    assert v in d by {
      assert s[iv] in d;
    }
    assert FindFirst(d, p).Some?;
    var w := FindFirst(d, p).value;
    var a := FirstIndex(d, v);
    var b := FirstIndex(d, w);
    assert b <= a;
    assert w in s by {
      assert d[b] in s;
    }
    assert FirstIndex(s, v) <= FirstIndex(s, w);
  }
}

=== FILE: stable_sort.dfy ===
/**
 Stable sorting by an integer key, the behaviour of a Laravel collection's
 `sortBy` on PHP 8, whose sort keeps elements with equal keys in their original
 order.
 */
module StableSort {

  /** `s` is in non-decreasing order of `key`. */
  predicate SortedBy<T>(s: seq<T>, key: T -> int)
  {
    forall i, j :: 0 <= i < j < |s| ==> key(s[i]) <= key(s[j])
  }

  /** The elements of `s` whose key is `k`, in their order in `s`. */
  function WithKey<T>(s: seq<T>, key: T -> int, k: int): (r: seq<T>)
    ensures |r| <= |s|
    decreases |s|
  {
    if |s| == 0 then []
    else
      var w := WithKey(s[..|s| - 1], key, k);
      if key(s[|s| - 1]) == k then w + [s[|s| - 1]] else w
  }

  /** `WithKey(s, key, k)` holds exactly the elements of `s` whose key is `k`. */
  lemma {:induction false} WithKeyMembers<T>(s: seq<T>, key: T -> int, k: int)
    ensures forall i :: 0 <= i < |WithKey(s, key, k)| ==> WithKey(s, key, k)[i] in s && key(WithKey(s, key, k)[i]) == k
    ensures forall i :: 0 <= i < |s| && key(s[i]) == k ==> s[i] in WithKey(s, key, k)
    decreases |s|
  {
    if |s| > 0 {
      var init := s[..|s| - 1];
      WithKeyMembers(init, key, k);
      assert s == init + [s[|s| - 1]];
      var w := WithKey(init, key, k);
      assert forall i :: 0 <= i < |w| ==> w[i] in init ==> w[i] in s;
    }
  }

  /**
   `r` orders the elements of `s` by key, and elements with equal keys keep
   their relative order from `s`.
   */
  ghost predicate IsStableSortOf<T>(r: seq<T>, s: seq<T>, key: T -> int)
  {
    && SortedBy(r, key)
    && (forall k :: WithKey(r, key, k) == WithKey(s, key, k))
  }

  /** Places `x` after every element of `t` whose key is at most `x`'s. */
  function Insert<T>(t: seq<T>, x: T, key: T -> int): seq<T>
    decreases |t|
  {
    if |t| == 0 || key(t[|t| - 1]) <= key(x) then t + [x]
    else Insert(t[..|t| - 1], x, key) + [t[|t| - 1]]
  }

  lemma {:induction false} InsertMultiset<T>(t: seq<T>, x: T, key: T -> int)
    ensures multiset(Insert(t, x, key)) == multiset(t) + multiset{x}
    decreases |t|
  {
    if |t| > 0 && key(t[|t| - 1]) > key(x) {
      var init := t[..|t| - 1];
      assert t == init + [t[|t| - 1]];
      InsertMultiset(init, x, key);
    }
  }

  lemma {:induction false} InsertSorted<T>(t: seq<T>, x: T, key: T -> int)
    requires SortedBy(t, key)
    ensures SortedBy(Insert(t, x, key), key)
    decreases |t|
  {
    if |t| > 0 && key(t[|t| - 1]) > key(x) {
      var init := t[..|t| - 1];
      var last := t[|t| - 1];
      InsertSorted(init, x, key);
      InsertMultiset(init, x, key);
      var r' := Insert(init, x, key);
      forall i | 0 <= i < |r'|
        ensures key(r'[i]) <= key(last)
      {
        assert r'[i] in multiset(r');
        assert r'[i] == x || r'[i] in init;
      }
    }
  }

  lemma {:induction false} InsertWithKey<T>(t: seq<T>, x: T, key: T -> int, k: int)
    ensures WithKey(Insert(t, x, key), key, k) == WithKey(t, key, k) + (if key(x) == k then [x] else [])
    decreases |t|
  {
    var r := Insert(t, x, key);
    if |t| == 0 || key(t[|t| - 1]) <= key(x) {
      assert r[..|r| - 1] == t;
    } else {
      var init := t[..|t| - 1];
      InsertWithKey(init, x, key, k);
      assert r[..|r| - 1] == Insert(init, x, key);
    }
  }

  /** Inserting into a sorted sequence keeps it sorted, adds `x` once, and puts `x` after its equals. */
  lemma InsertSpec<T>(t: seq<T>, x: T, key: T -> int)
    requires SortedBy(t, key)
    ensures SortedBy(Insert(t, x, key), key)
    ensures multiset(Insert(t, x, key)) == multiset(t) + multiset{x}
    ensures forall k :: WithKey(Insert(t, x, key), key, k) == WithKey(t, key, k) + (if key(x) == k then [x] else [])
  {
    InsertSorted(t, x, key);
    InsertMultiset(t, x, key);
    forall k
      ensures WithKey(Insert(t, x, key), key, k) == WithKey(t, key, k) + (if key(x) == k then [x] else [])
    {
      InsertWithKey(t, x, key, k);
    }
  }

  /** PHP's stable sort, as insertion sort. */
  function SortBy<T>(s: seq<T>, key: T -> int): (r: seq<T>)
    ensures IsStableSortOf(r, s, key)
    ensures multiset(r) == multiset(s)
    decreases |s|
  {
    if |s| == 0 then []
    else
      var init := s[..|s| - 1];
      var t := SortBy(init, key);
      assert s == init + [s[|s| - 1]];
      InsertSpec(t, s[|s| - 1], key);
      Insert(t, s[|s| - 1], key)
  }

  /** The last element of a sorted sequence carries its largest key. */
  lemma LastKeyIsMax<T>(s: seq<T>, key: T -> int, x: T)
    requires SortedBy(s, key) && x in s
    ensures key(x) <= key(s[|s| - 1])
  {
    var i :| 0 <= i < |s| && s[i] == x;
    assert i < |s| - 1 ==> key(s[i]) <= key(s[|s| - 1]);
  }

  /** The last element of `s` is the last element of those sharing its key. */
  lemma WithKeyOfLast<T>(s: seq<T>, key: T -> int)
    requires |s| > 0
    ensures WithKey(s, key, key(s[|s| - 1])) == WithKey(s[..|s| - 1], key, key(s[|s| - 1])) + [s[|s| - 1]]
    ensures forall k :: k != key(s[|s| - 1]) ==> WithKey(s, key, k) == WithKey(s[..|s| - 1], key, k)
  {
  }

  lemma AppendInjective<T>(a: seq<T>, b: seq<T>, x: T, y: T)
    requires a + [x] == b + [y]
    ensures a == b && x == y
  {
    assert a == (a + [x])[..|a|];
    assert b == (b + [y])[..|b|];
  }

  /** A sorted sequence's last key is determined by its elements of every key. */
  lemma LastKeyAgrees<T>(r1: seq<T>, r2: seq<T>, key: T -> int)
    requires SortedBy(r2, key)
    requires forall k :: WithKey(r1, key, k) == WithKey(r2, key, k)
    requires |r1| > 0
    ensures |r2| > 0 && key(r1[|r1| - 1]) <= key(r2[|r2| - 1])
  {
    var k1 := key(r1[|r1| - 1]);
    WithKeyOfLast(r1, key);
    var w := WithKey(r2, key, k1);
    WithKeyMembers(r2, key, k1);
    assert w[|w| - 1] == r1[|r1| - 1];
    assert r1[|r1| - 1] in r2;
    LastKeyIsMax(r2, key, r1[|r1| - 1]);
  }

  /**
   Two sorted sequences that agree on the elements of every key are equal: being
   sorted and stable determines the result completely.
   */
  lemma {:induction false} StableSortUnique<T>(r1: seq<T>, r2: seq<T>, key: T -> int)
    requires SortedBy(r1, key) && SortedBy(r2, key)
    requires forall k :: WithKey(r1, key, k) == WithKey(r2, key, k)
    ensures r1 == r2
    decreases |r1| + |r2|
  {
    if |r1| > 0 {
      LastKeyAgrees(r1, r2, key);
      LastKeyAgrees(r2, r1, key);
      var n1, n2 := |r1| - 1, |r2| - 1;
      DropEqualLast(r1, r2, r1[..n1], r2[..n2], key);
      StableSortUnique(r1[..n1], r2[..n2], key);
      assert r1 == r1[..n1] + [r1[n1]] && r2 == r2[..n2] + [r2[n2]];
    } else if |r2| > 0 {
      LastKeyAgrees(r2, r1, key);
    }
  }

  /** Two lists agreeing on every key and ending in the same key end in the same element, and so do their prefixes. */
  lemma DropEqualLast<T>(r1: seq<T>, r2: seq<T>, init1: seq<T>, init2: seq<T>, key: T -> int)
    requires |r1| > 0 && |r2| > 0 && key(r1[|r1| - 1]) == key(r2[|r2| - 1])
    requires init1 == r1[..|r1| - 1] && init2 == r2[..|r2| - 1]
    requires forall k :: WithKey(r1, key, k) == WithKey(r2, key, k)
    ensures r1[|r1| - 1] == r2[|r2| - 1]
    ensures forall k :: WithKey(init1, key, k) == WithKey(init2, key, k)
  {
    var n1, n2 := |r1| - 1, |r2| - 1;
    var k := key(r1[n1]);
    WithKeyOfLast(r1, key);
    WithKeyOfLast(r2, key);
    AppendInjective(WithKey(r1[..n1], key, k), WithKey(r2[..n2], key, k), r1[n1], r2[n2]);
    forall k' | k' != k
      ensures WithKey(r1[..n1], key, k') == WithKey(r2[..n2], key, k')
    {
      assert WithKey(r1, key, k') == WithKey(r2, key, k');
    }
  }

  /** `SortBy` is the one and only stable sort of its input. */
  lemma SortByCharacterized<T>(r: seq<T>, s: seq<T>, key: T -> int)
    ensures r == SortBy(s, key) <==> IsStableSortOf(r, s, key)
  {
    if IsStableSortOf(r, s, key) {
      StableSortUnique(r, SortBy(s, key), key);
    }
  }

  /** Two elements of `s` with key `k` keep their order in `WithKey(s, key, k)`. */
  lemma {:induction false} WithKeyKeepsOrder<T>(s: seq<T>, key: T -> int, k: int, i: nat, j: nat)
    requires i < j < |s| && key(s[i]) == k && key(s[j]) == k
    ensures exists a, b :: 0 <= a < b < |WithKey(s, key, k)| && WithKey(s, key, k)[a] == s[i] && WithKey(s, key, k)[b] == s[j]
    decreases |s|
  {
    var init := s[..|s| - 1];
    var w := WithKey(s, key, k);
    var wi := WithKey(init, key, k);
    if j == |s| - 1 {
      WithKeyMembers(init, key, k);
      assert w == wi + [s[j]];
      assert init[i] == s[i];
      var a :| 0 <= a < |wi| && wi[a] == s[i];
      assert w[a] == s[i] && w[|wi|] == s[j];
    } else {
      assert init[i] == s[i] && init[j] == s[j];
      WithKeyKeepsOrder(init, key, k, i, j);
      var a, b :| 0 <= a < b < |wi| && wi[a] == s[i] && wi[b] == s[j];
      assert w[..|wi|] == wi;
      assert w[a] == s[i] && w[b] == s[j];
    }
  }

  /** Two positions of `WithKey(s, key, k)` come from positions of `s` in the same order. */
  lemma {:induction false} WithKeyFromOrder<T>(s: seq<T>, key: T -> int, k: int, a: nat, b: nat)
    requires a < b < |WithKey(s, key, k)|
    ensures exists i, j :: 0 <= i < j < |s| && s[i] == WithKey(s, key, k)[a] && s[j] == WithKey(s, key, k)[b]
    decreases |s|
  {
    var init := s[..|s| - 1];
    var w := WithKey(s, key, k);
    var wi := WithKey(init, key, k);
    assert w[..|wi|] == wi;
    if b < |wi| {
      WithKeyFromOrder(init, key, k, a, b);
      var i, j :| 0 <= i < j < |init| && init[i] == wi[a] && init[j] == wi[b];
      assert s[i] == w[a] && s[j] == w[b];
    } else {
      assert w == wi + [s[|s| - 1]];
      WithKeyMembers(init, key, k);
      assert wi[a] in init;
      var i :| 0 <= i < |init| && init[i] == wi[a];
      assert s[i] == w[a] && s[|s| - 1] == w[b];
    }
  }

  /** In a stable sort, two elements with equal keys appear in the order they have in the input. */
  lemma StableSortTieOrder<T>(r: seq<T>, s: seq<T>, key: T -> int, i: nat, j: nat)
    requires IsStableSortOf(r, s, key)
    requires i < j < |r| && key(r[i]) == key(r[j])
    ensures exists i', j' :: 0 <= i' < j' < |s| && s[i'] == r[i] && s[j'] == r[j]
  {
    var k := key(r[j]);
    WithKeyKeepsOrder(r, key, k, i, j);
    var a, b :| 0 <= a < b < |WithKey(r, key, k)| && WithKey(r, key, k)[a] == r[i] && WithKey(r, key, k)[b] == r[j];
    assert WithKey(r, key, k) == WithKey(s, key, k);
    WithKeyFromOrder(s, key, k, a, b);
  }
}

=== FILE: strs.dfy ===
/**
 The string helpers the discovery code relies on: PHP's `trim` and Laravel's
 `blank`, `Str::before` for one character, and `str_replace` for one needle.
 */
module Strs {

  /** The characters PHP's `trim` strips by default: space, tab, newline, carriage return, NUL and vertical tab. */
  predicate IsTrimmable(c: char)
  {
    c == ' ' || c == '\t' || c == '\n' || c == '\r' || c == '\0' || c == '\U{B}'
  }

  /** Drops leading trimmable characters. */
  function TrimStart(s: string): (r: string)
    ensures |r| <= |s| && r == s[|s| - |r|..]
    ensures |r| > 0 ==> !IsTrimmable(r[0])
    ensures forall i :: 0 <= i < |s| - |r| ==> IsTrimmable(s[i])
  {
    if |s| > 0 && IsTrimmable(s[0]) then TrimStart(s[1..]) else s
  }

  /** Drops trailing trimmable characters. */
  function TrimEnd(s: string): (r: string)
    ensures |r| <= |s| && r == s[..|r|]
    ensures |r| > 0 ==> !IsTrimmable(r[|r| - 1])
    ensures forall i :: |r| <= i < |s| ==> IsTrimmable(s[i])
  {
    if |s| > 0 && IsTrimmable(s[|s| - 1]) then TrimEnd(s[..|s| - 1]) else s
  }

  /** PHP's `trim` with its default character list. */
  function Trim(s: string): string
  {
    TrimEnd(TrimStart(s))
  }

  /** Laravel's `blank` on a string: nothing is left once it is trimmed. */
  predicate Blank(s: string)
  {
    Trim(s) == ""
  }

  /** A string is blank exactly when every character of it is trimmable. */
  lemma BlankIffAllTrimmable(s: string)
    ensures Blank(s) <==> forall i :: 0 <= i < |s| ==> IsTrimmable(s[i])
  {
  }

  /** Laravel's `Str::before` for a one-character needle: everything before its first occurrence. */
  function Before(s: string, c: char): (r: string)
    ensures r <= s
    ensures c !in r
    ensures |r| < |s| ==> s[|r|] == c
  {
    if |s| == 0 || s[0] == c then "" else [s[0]] + Before(s[1..], c)
  }

  /** PHP's `str_replace` for one needle: occurrences are replaced left to right, without overlap. */
  function ReplaceAll(s: string, needle: string, repl: string): (r: string)
    requires |needle| > 0
    ensures forall c :: c in r ==> c in s || c in repl
    ensures needle[0] !in s ==> r == s
    ensures |needle| == 1 && needle[0] !in repl ==> needle[0] !in r
    ensures |needle| == 1 && |repl| == 1 ==>
      |r| == |s| && forall i :: 0 <= i < |s| ==> r[i] == (if s[i] == needle[0] then repl[0] else s[i])
    decreases |s|
  {
    if |s| == 0 then ""
    else if needle <= s then
      var rest := ReplaceAll(s[|needle|..], needle, repl);
      assert forall c :: c in s[|needle|..] ==> c in s;
      repl + rest
    else
      var rest := ReplaceAll(s[1..], needle, repl);
      assert forall c :: c in s[1..] ==> c in s;
      [s[0]] + rest
  }

  /** `needle` occurs somewhere in `s`. */
  predicate Contains(s: string, needle: string)
  {
    exists i :: 0 <= i < |s| && needle <= s[i..]
  }

  /** A subject in which the needle occurs nowhere is left unchanged. */
  lemma {:induction false} ReplaceAllAbsent(s: string, needle: string, repl: string)
    requires |needle| > 0
    ensures !Contains(s, needle) ==> ReplaceAll(s, needle, repl) == s
    decreases |s|
  {
    if |s| > 0 && !Contains(s, needle) {
      assert s[0..] == s;
      assert !(needle <= s);
      forall i | 0 <= i < |s[1..]|
        ensures !(needle <= s[1..][i..])
      {
        assert s[1..][i..] == s[i + 1..];
      }
      ReplaceAllAbsent(s[1..], needle, repl);
      assert s == [s[0]] + s[1..];
    }
  }

  /** A subject that does not start with the needle keeps its first character. */
  lemma ReplaceAllStep(s: string, needle: string, repl: string)
    requires |needle| > 0 && |s| > 0 && s[0] != needle[0]
    ensures ReplaceAll(s, needle, repl) == [s[0]] + ReplaceAll(s[1..], needle, repl)
  {
    assert !(needle <= s);
  }

  /** No match of `needle` can start inside `a` when `a` lacks its first character. */
  lemma {:induction false} ReplaceAllSkip(a: string, b: string, needle: string, repl: string)
    requires |needle| > 0 && needle[0] !in a
    ensures ReplaceAll(a + b, needle, repl) == a + ReplaceAll(b, needle, repl)
    decreases |a|
  {
    if |a| > 0 {
      assert (a + b)[0] == a[0];
      assert (a + b)[1..] == a[1..] + b;
      ReplaceAllStep(a + b, needle, repl);
      ReplaceAllSkip(a[1..], b, needle, repl);
      assert a == [a[0]] + a[1..];
    } else {
      assert a + b == b;
    }
  }

  /** A subject that is exactly the one-character needle becomes the replacement, whatever its length. */
  lemma ReplaceCharSingle(c: char, repl: string)
    ensures ReplaceAll([c], [c], repl) == repl
  {
    assert ReplaceAll([c][1..], [c], repl) == "";
  }

  /** A one-character needle is replaced independently in each part of a concatenation. */
  lemma {:induction false} ReplaceCharConcat(a: string, b: string, c: char, repl: string)
    ensures ReplaceAll(a + b, [c], repl) == ReplaceAll(a, [c], repl) + ReplaceAll(b, [c], repl)
    decreases |a|
  {
    if |a| > 0 {
      assert (a + b)[0] == a[0];
      assert (a + b)[1..] == a[1..] + b;
      assert [c] <= a + b <==> [c] <= a;
      ReplaceCharConcat(a[1..], b, c, repl);
    } else {
      assert a + b == b;
    }
  }
}

=== FILE: wrappers.dfy ===
/** The optional value used where the source returns a nullable string. */
module Wrappers {

  datatype Option<+T> = None | Some(value: T)
}
